=== FILE: README.md ===
# tts-recorder session model

A Dafny model of the recording tool in `main.py`. The operator reads sentences
from a corpus aloud. Each capture is trimmed of silence and checked for loudness,
then replayed, and kept or skipped. At the end, the kept clips are assembled into
an LJSpeech-style `metadata.csv`. The model covers:

- **Silence trimming and the quality gate** (`filter_chunks`), in `trim.dfy`.
  A chunk is the raw bytes of one `stream.read`, and its energy is an
  abstract `metric: Chunk -> real`. Two bounded scans look for voice (energy
  at or above 25.0). The forward scan starts four chunks in from the front,
  past the key-press noise, and the backward scan four chunks in from the
  back. A scan that finds no voice runs on to the far end. The window they
  find is widened by three chunks. It is kept only when its mean energy is
  strictly above 40.0. Trimming is not idempotent: a kept capture trimmed
  again can lose its voice to the second scan's four-chunk start, and then
  it is rejected (`RetrimCanReject`).
- **The text formats.**
  - `corpus.dfy`: the corpus reader (`get_sentences`). It splits on `\n`, then
    on `|`, and keeps field 1 of three-field lines.
  - `progress.dfy`: the progress file (`write_progress` / `get_progress`,
    and the `undo` command).
  - `manifest.dfy`:
    - the index encoded in clip names (`get_recorded_sentences`);
    - the manifest (`assemble`).
  - `pystr.dfy`: the parts of Python's `str.split`, `int()` with the white
    space it skips, `str()` and list indexing that these rely on.
    `pymath.dfy` holds the built-in `max` and `min`.
- **The command loop of `main`**, in `session.dfy`.
  - The persistent state is the progress file, the set of `.wav` names in the
    output directory, and the manifest.
  - Operator input is a sequence of turns. A turn is a command, the answer to
    the practice prompt, and the takes of a recording pass.
  - A take is one of three things:
    - a capture of fewer than five chunks, on which `filter_chunks` raises
      `IndexError` (main.py:220, 106) and the program stops;
    - a capture that `filter_chunks` rejected;
    - a reviewed capture with its review answer. An EOF answer is `None`.
  - `Step` is one iteration of the loop; `Run` is a whole session.

The source decides whether a clip exists only by its file name. So a commit
for sentence `i` is modelled as adding `i.wav` and its resampled copy
`i_22050.wav` to the directory. Audio data is not modelled.

An empty command line starts a recording pass, because only EOF (`None` from
`get_input`) ends the loop (main.py:171-173).

## Model

| member | source | states |
|---|---|---|
| `SilenceTrim.FilterChunks` | main.py:102-124 | The loop scans give the same result as the gate applied to the reference window `TrimWindow`. A kept capture is the unmodified inclusive slice of that window, so it has at least two chunks, and its mean energy is strictly above `MIN_AVG_RMS`. A capture with no chunk at or above `RMS_THRESHOLD` is rejected. |
| `SilenceTrim.ScanForward` | main.py:104-107 | The forward scan loop stops where the reference `ForwardScan` from index 4 does. |
| `SilenceTrim.ScanBackward` | main.py:105-109 | The backward scan loop stops where the reference `BackwardScan` from `max_idx - 4` does. |
| `SilenceTrim.Average` | main.py:116-119 | The averaging loop, summing front to back and dividing by the count, computes the mean energy of the kept chunks. |
| `SilenceTrim.ForwardScan` | main.py:106-107 | Started after quiet chunks only, the forward scan stops at the first loud chunk at or after index 4, or at the last index. |
| `SilenceTrim.BackwardScan` | main.py:108-109 | Started before quiet chunks only, the backward scan stops at the last loud chunk at or before `max_idx - 4`, or at index 0. |
| `SilenceTrim.TrimWindow` | main.py:103-111 | The widened, clamped window of the two scans lies inside the capture and is one the scans admit. |
| `SilenceTrim.Widen` | main.py:110-111 | The scan results widened by the keep padding of three chunks. The start is clamped at 0 and the end at `max_idx`. `TrimWindowInside` shows that after the scans the clamps never bind. |
| `SilenceTrim.Gate` | main.py:112-124 | The quality gate applied to a window. A window with `start < end` is kept as the inclusive slice `chunks[start..end]` when its mean energy is strictly above 40.0. Every other window gives `[]`. `FilterChunks` is this gate applied to `TrimWindow`, and `QuietGateRejects` shows it refuses an all-quiet capture. |
| `SilenceTrim.QuietSumBelow` | main.py:116-119 | The summed energy of chunks that are all below `RMS_THRESHOLD` is below the threshold times their count. |
| `SilenceTrim.QuietGateRejects` | main.py:112-124 | Whatever window is chosen, the quality gate rejects a capture whose chunks are all quiet. |
| `SilenceTrim.ForwardStopUnique` | main.py:106-107 | The forward scan stops at one determined index: the first loud chunk at or after index 4, or the last index. |
| `SilenceTrim.BackwardStopUnique` | main.py:108-109 | The backward scan stops at one determined index: the last loud chunk at or before `max_idx - 4`, or index 0. |
| `SilenceTrim.TrimWindowUnique` | main.py:103-111 | The scans and the clamped widening determine a single window. |
| `SilenceTrim.TrimsExactly` | main.py:102-124 | A result is one that the scans, the widening and the gate admit exactly when it equals the gate applied to `TrimWindow`, so trimming is deterministic. |
| `SilenceTrim.TrimWindowInside` | main.py:103-111 | The `max`/`min` clamping of the widening never binds. The window is the two stop indices widened by three, and it leaves at least one chunk out at each end. |
| `SilenceTrim.LoudChunkInWindow` | main.py:103-111 | The window lies inside the capture and is not degenerate whenever a loud chunk lies outside the ignored ends. Every such chunk lies in the window, at least three chunks from each edge. |
| `SilenceTrim.QuietWindowShape` | main.py:103-112 | With no loud chunk, the scans run to opposite ends. The window is `[max(max_idx-3,0), min(3,max_idx)]`, and it is non-degenerate exactly when there are at most six chunks. |
| `SilenceTrim.TwentyChunkWindow` | main.py:102-114 | Twenty chunks with only chunks 6 to 14 loud give the window `[3, 17]`. The result is `[]` or `chunks[3..18]`. |
| `SilenceTrim.RetrimCanReject` | main.py:102-124 | Trimming is not idempotent. Eleven chunks, silent except chunk 5, are kept as chunks 2 to 8. Trimming that kept capture again gives the degenerate window `[3, 3]`, because its forward scan starts past the loud chunk, so the capture is rejected. |
| `PyStr.Split` | main.py:62 | `str.split` with a one-character separator gives at least one piece. No piece contains the separator, and joining the pieces with it gives back the input. |
| `PyStr.SplitJoin` | main.py:62-65 | Splitting a join of separator-free pieces gives back the pieces. |
| `PyStr.SplitAt` | main.py:65 | A separator after a separator-free prefix starts a new piece. |
| `PyStr.ShowInt` | main.py:76 | `str(n)` is non-empty and made of decimal digits. It starts with a minus sign exactly when `n < 0`, and has no leading zero: a leading `0` means the text is `0` itself, and a negative number's first digit is not `0`. |
| `PyStr.ParseInt` | main.py:82 | `int(s)`: it strips `int()`'s ASCII white space, then reads an optional sign and decimal digits; anything else is refused. A plain digit string reads as its decimal value, and a string of white space only is refused. `ParseShowInt` and `ParseIntPadding` relate it to `str()` and to the white space it skips. |
| `PyStr.ParseShowInt` | main.py:76-82 | `int(str(n)) == n` for every integer `n`. |
| `PyStr.ParseIntPadding` | main.py:82 | `int()` skips a newline and spaces around the digits. It refuses a number next to the separator `\x1c`, which `str.strip()` would remove. |
| `PyStr.PyIndex` | main.py:146 | Python indexing with `-len <= i < len` names an element of the list. A non-negative index counts from the front, and a negative one names `s[len + i]`. |
| `Corpus.SentencesOf` | main.py:64-69 | The kept fields number at most the lines and contain no `\|`. When no line holds a newline, neither do the fields. |
| `Corpus.GetSentences` | main.py:60-71 | `get_sentences` returns at most one sentence per line, each free of `\|` and newline. |
| `Corpus.SentencesOfAppend` | main.py:64-69 | Lines are handled independently and in file order: the sentences of concatenated line lists are the concatenated sentences. |
| `Corpus.SentencesOfLine` | main.py:65-69 | A line contributes its field 1 exactly when it splits into three fields, and nothing otherwise. |
| `Corpus.LineSplits` | main.py:65 | A line built from three `\|`- and newline-free fields splits back into those fields. |
| `Corpus.RenderSplits` | main.py:62-69 | Reading newline-terminated three-field lines gives each line's field 1 in order. The empty piece after the final newline is skipped. |
| `Corpus.Render` | main.py:146-148 | The text `writelines` produces for a list of entries: each line `id\|raw\|normalized` followed by `\n`, in order. `RenderLines`, `RenderSplits` and `CorpusRoundTrip` show what the corpus reader gets back from it. |
| `Corpus.RenderLines` | main.py:62 | Splitting a rendered file on `\n` gives its lines in order, then one empty piece after the final newline. |
| `Corpus.RenderFields` | main.py:62-65 | Every line of a rendered file splits on `\|` back into all three fields of its entry. |
| `Corpus.CorpusRoundTrip` | main.py:60-71 | `get_sentences` of a rendered corpus returns each entry's raw text, in order. |
| `ProgressStore.WriteProgress` | main.py:74-76 | The written file reads back, via `int()`, as the integer written. |
| `ProgressStore.GetProgress` | main.py:79-85 | The read always leaves a file that parses to the value returned. A file `int()` accepts (ASCII white space, one sign, digits) is returned as is and left unchanged. Any other file reads as 0 and is rewritten to hold `0`. |
| `ProgressStore.Undo` | main.py:179-181 | `undo` stores the cursor minus one, floored at 0. It never goes negative and stays 0 at 0. |
| `ProgressStore.ReadAfterWrite` | main.py:74-85 | `write_progress(n)` then `get_progress()` yields `n` for every integer `n`, and leaves the file as written. |
| `ProgressStore.CorruptReadsZero` | main.py:80-85 | A missing file, or one `int()` refuses, reads as 0 and is reset to the text `0`. |
| `ProgressStore.SeparatorPaddedReadsZero` | main.py:79-85 | A progress file holding `\x1c5` is refused by `int()`, so it reads as 0 and is reset. |
| `ProgressStore.ReadIsStable` | main.py:79-85 | Reading twice gives the same value and file as reading once. |
| `Manifest.RecordedSentences` | main.py:135-139 | The result is `None` (Python's `ValueError`) exactly when some `.wav` name's stem, before its first `_`, is not an integer to `int()`. Otherwise it is exactly the set of indices the names encode. |
| `Manifest.IsWavName` | main.py:137 | A name the `*.wav` glob of the output directory returns: it ends in `.wav`, is longer than that suffix, and does not start with a dot, since the glob skips hidden files. |
| `Manifest.Stem` | main.py:138 | `os.path.splitext(name)[0]` for a globbed name: the name without its `.wav` suffix. |
| `Manifest.ClipIndex` | main.py:138 | The index a clip name encodes: `int()` of the stem up to its first `_`. `ClipNamesParse` shows it reads back both names a commit writes, and `SeparatorClipNameRaises` shows a name it refuses. |
| `Manifest.SeparatorClipNameRaises` | main.py:135-139 | A clip named `\x1c5.wav` makes `get_recorded_sentences` raise. |
| `Manifest.ClipName` | main.py:240 | The clip a commit writes for sentence `i`: `str(i) + ".wav"`. |
| `Manifest.ResampledName` | main.py:131 | The resampled copy `resample` writes next to it: the stem, then `_`, then `str(22050)`, then `.wav`. |
| `Manifest.ClipNamesParse` | main.py:127-139 | Both the committed clip `i.wav` and its resampled copy `i_22050.wav` are globbed as `.wav` files and encode index `i`. |
| `Manifest.RecordedAfterAdding` | main.py:135-139 | Adding one or more names that all encode `i` adds exactly `i` to the recorded set. |
| `Manifest.RecordedAfterCommit` | main.py:239-247 | Writing a clip and its resampled copy for sentence `i` adds exactly `i` to the recorded set. |
| `Manifest.SortedIndices` | main.py:145 | `sorted(list(s))` has the elements of `s`, each once, in strictly ascending order. |
| `Manifest.SortedIndicesUnique` | main.py:145 | A strictly ascending listing of a set is unique, so it is the sorted one. |
| `Manifest.ManifestEntry` | main.py:146 | The manifest line for sentence `i`: identifier `str(i) + "_22050"`, and `sentences[i]` twice, with Python's negative indexing. `ManifestEntryFields` shows it splits back into these three fields. |
| `Manifest.Assemble` | main.py:142-148 | The manifest text: the rendered entries of the recorded indices in ascending order. `ManifestLines` states its lines and `ManifestRoundTrip` what the corpus reader gets back from it. |
| `Manifest.ManifestRoundTrip` | main.py:142-148 | Reading the manifest back with the corpus reader gives one sentence per distinct recorded index. They come in ascending index order, each being the text of that index's sentence. |
| `Manifest.ManifestLines` | main.py:142-148 | The manifest has one line per recorded index, in ascending order, and ends with a newline. Line `k` splits into the identifier `<idx>_22050` of its clip, then the sentence text twice. |
| `Manifest.ManifestEntryFields` | main.py:146 | Line `k` of the rendered entries of an index list splits into `<idxs[k]>_22050` and that sentence twice. |
| `Manifest.SingleClipManifest` | main.py:142-148 | With only sentence 0 recorded, the manifest is exactly the line `0_22050\|s\|s` plus a newline, where `s` is sentence 0. |
| `Session.PassDecidedByFirstEnd` | main.py:204-239 | A recording pass is decided by its first take that is either a capture too short to trim or a review not answered `r`. A short capture raises. The answer `s` skips, and any other answer, EOF included, commits. |
| `Session.PassUnfinishedWithoutEnd` | main.py:204-237 | With only rejected captures and `r` answers, the pass does not finish. |
| `Session.UnfinishedMeansNoEnd` | main.py:206-237 | Conversely, a pass that has not finished has met neither a short capture nor a review not answered `r`. |
| `Session.PassResult` | main.py:204-238 | The inner recording loop over the takes. `PassDecidedByFirstEnd`, `PassUnfinishedWithoutEnd` and `UnfinishedMeansNoEnd` characterise it by its first ending take. |
| `Session.RetriesChangeNothing` | main.py:220-237 | Rejected captures and `r` redos before the deciding take do not change how the pass ends. |
| `Session.SingleTakePass` | main.py:231-239 | One reviewed take answered `s` skips. Any other answer except `r` commits. |
| `Session.AssembleCommand` | main.py:182-184 | `assemble` never touches the progress file or the clips. It succeeds exactly when every clip name parses and names a sentence, and otherwise crashes leaving the state unchanged. |
| `Session.RecordCommand` | main.py:193-250 | A recording command never changes the manifest. It adds clips only when the pass completes. A cursor at or past the end of the corpus gives `Done`. A cursor below `-len(sentences)` crashes, through the IndexError at main.py:199. For an in-range cursor, a capture too short to trim crashes. Every crash leaves the clips unchanged. |
| `Session.Step` | main.py:169-250 | EOF quits and changes nothing. `devices` changes nothing. `undo` rewrites only the progress file. `assemble` changes neither progress nor clips. Only `assemble` changes the manifest. |
| `Session.StepFrame` | main.py:169-250 | `undo` moves the cursor to `max(0, p-1)`. Every other command leaves the cursor or moves it one forward. The only clips ever added are those of the sentence at the cursor. |
| `Session.RecordingPass` | main.py:193-250 | Consider a pass for the sentence at cursor `idx`, with `-len(sentences) <= idx < len(sentences)`; negative cursors count from the end. A skip or a commit ends with the cursor at `idx + 1`. A skip adds no clip, and a commit adds exactly sentence `idx` to the recorded set. An unfinished pass changes neither cursor nor clips. A capture too short to trim crashes the program, also leaving both unchanged. |
| `Session.FinishedSessionStops` | main.py:193-196 | With the cursor at or past the end of the corpus, a recording command ends the session. It leaves cursor, clips and manifest unchanged, and leaves the state unchanged when the progress file was valid. |
| `Session.AssembleIdempotent` | main.py:182-184 | Running `assemble` twice in a row gives the same state as running it once. |
| `Session.StepKeepsConsistent` | main.py:169-250 | Consistent means the cursor lies in `[0, len(sentences)]` and every clip names a sentence. From a consistent state, a command crashes only when its recording pass meets a capture too short to trim. The state stays consistent either way. |
| `Session.RunKeepsConsistent` | main.py:169-250 | A whole session started in a consistent state ends consistent. It crashes only if some recording turn met a capture too short to trim. |
| `Session.Run` | main.py:169-250 | The `while True` loop over a whole input. It never stops in the `Ready` status: it ends only through EOF, the end of the corpus, a crash, or takes that run out. `RunReadyStep` unfolds it one command at a time. |
| `Session.OneTakePass` | main.py:220-250 | One reviewed take for the sentence at the cursor moves the cursor on and leaves the manifest alone. It adds that sentence's clips unless the answer is `s`. |
| `Session.AcceptSkipUndoScenario` | main.py:169-250 | From a fresh directory with three sentences: accept, skip, `undo`, `assemble`, then EOF. The cursor ends at 1, the manifest lists only sentence 0, and the session quits. |

## Left out

- `SilenceTrim.FilterChunks`: `compute_rms` (main.py:88-99) is not modelled. It unpacks 16-bit samples and takes a floating-point square root. A chunk's energy is an abstract function, and float sums and the mean are exact reals, so rounding is not modelled.
- `SilenceTrim.FilterChunks`: the sample width is assumed to be 2. `compute_rms` unpacks `len(chunk)/sample_width` 16-bit samples (main.py:89-91), with `sample_width` taken from the reference file (main.py:154), while the stream is always opened for 16-bit samples (main.py:23, 159). With any other width `struct.unpack` raises on every chunk, and every capture of five or more chunks crashes at main.py:220. The total `metric` does not model this.
- `SilenceTrim.FilterChunks`: fewer than five chunks is a precondition, because the source then raises `IndexError` at main.py:106. The session model represents such a capture as the take `TooShort`, which crashes the program.
- Audio input and output are not modelled:
  - the PyAudio stream, device enumeration for `devices` (modelled as changing nothing) and `get_reference_sample_width`;
  - the replay of a kept capture.
  They are native audio I/O with no effect on the persistent state.
- The keyboard listener thread and `stream.read` loop (main.py:206-219) are not modelled. A capture is represented only as a take: too short to trim, rejected by `filter_chunks`, or kept and reviewed.
- `Session.StepKeepsConsistent`: an interrupt (Ctrl-C) outside a prompt is not modelled. During capture, replay, the clip writes or resampling (main.py:206-247) it is not caught and ends the program. Between the `wave` write (main.py:241-246) and `write_progress` (main.py:250) it leaves `i.wav` without `i_22050.wav`, with the cursor not advanced. The model treats writing both files and advancing the cursor as one step, and says a crash comes only from a short capture.
- `Session.Run`: a pass whose takes run out stops the model with status `Recording`. In the source, the loop would go on waiting for the operator.
- The `wave`, `librosa` and `soundfile` writes (main.py:127-132, 240-247) are not modelled. Only the two file names a commit creates are kept, and audio contents are not modelled.
- The `metadata.csv` write (main.py:147-148) is modelled as the manifest text replacing the previous one.
- `get_input` (main.py:52-57): a turn carries the already stripped answer, or `None` for EOF or interrupt. The answer to the prompt at main.py:222 is discarded by the source and is not part of a turn.
- `PyStr.ParseInt` accepts optional surrounding ASCII white space (space and `\t` to `\r`), one sign and ASCII digits. Python's `int()` also accepts underscores between digits and non-ASCII digits and white space. Such progress files or clip names would parse in Python but read as invalid here. CPython also refuses decimal strings longer than 4300 digits. The model reads such a progress file as its value, where Python would read 0.
- `Corpus.GetSentences`: the text-mode read at main.py:61 turns `\r\n` and a lone `\r` into `\n`. The model takes the text after that translation, and the UTF-8 decoding is not modelled.
- OS errors are not modelled: an unreadable corpus file, a failed directory creation, an unwritable file. Only the missing or unparsable progress file, which the source catches, is modelled.
- `argparse`, the `print` messages and the choice of input device are not modelled. They have no effect on the state.

=== FILE: corpus.dfy ===
/** The sentence corpus (`get_sentences`): pipe-separated lines
    `id|raw text|normalised text`, of which the raw text is read. The same line
    shape, newline-terminated, is what the manifest is made of. */
module Corpus {
  import opened PyStr

  /** A text that fits in one field of one line. */
  predicate Clean(s: string)
  {
    '|' !in s && '\n' !in s
  }

  /** One corpus or manifest record. */
  datatype Entry = Entry(id: string, raw: string, normalized: string)

  predicate CleanEntry(e: Entry)
  {
    Clean(e.id) && Clean(e.raw) && Clean(e.normalized)
  }

  function Line(e: Entry): string
  {
    e.id + "|" + e.raw + "|" + e.normalized
  }

  /** The text of a file holding `entries`, one newline-terminated line each. */
  function Render(entries: seq<Entry>): string
  {
    if |entries| == 0 then "" else Line(entries[0]) + "\n" + Render(entries[1..])
  }

  function Raws(entries: seq<Entry>): (r: seq<string>)
    ensures |r| == |entries|
    ensures forall i :: 0 <= i < |r| ==> r[i] == entries[i].raw
  {
    if |entries| == 0 then [] else [entries[0].raw] + Raws(entries[1..])
  }

  /** Field 1 of every line that splits into exactly three `|` fields, in
      order; other lines are skipped. */
  function SentencesOf(lines: seq<string>): (r: seq<string>)
    ensures |r| <= |lines|
    ensures forall i :: 0 <= i < |r| ==> '|' !in r[i]
    ensures (forall j :: 0 <= j < |lines| ==> '\n' !in lines[j]) ==>
              forall i :: 0 <= i < |r| ==> Clean(r[i])
  {
    if |lines| == 0 then []
    else
      var pieces := Split(lines[0], '|');
      var rest := SentencesOf(lines[1..]);
      if |pieces| != 3 then rest
      else
        assert forall c :: c in pieces[1] ==> c in lines[0] by {
          forall c | c in pieces[1] ensures c in lines[0] {
            JoinThree(pieces, '|');
            assert lines[0] == pieces[0] + ['|'] + (pieces[1] + ['|'] + pieces[2]);
          }
        }
        [pieces[1]] + rest
  }

  /** `get_sentences` on the text of the corpus file, as a text-mode read
      returns it: `\r\n` and a lone `\r` already read as `\n`. */
  function GetSentences(text: string): (r: seq<string>)
    ensures |r| <= |Split(text, '\n')|
    ensures forall i :: 0 <= i < |r| ==> Clean(r[i])
  {
    SentencesOf(Split(text, '\n'))
  }

  /** Lines are handled independently and in order. */
  lemma {:induction false} SentencesOfAppend(a: seq<string>, b: seq<string>)
    ensures SentencesOf(a + b) == SentencesOf(a) + SentencesOf(b)
    decreases |a|
  {
    if |a| > 0 {
      assert (a + b)[0] == a[0];
      assert (a + b)[1..] == a[1..] + b;
      SentencesOfAppend(a[1..], b);
      var x := Split(a[0], '|');
      if |x| == 3 {
        assert SentencesOf(a + b) == [x[1]] + SentencesOf(a[1..] + b);
        assert SentencesOf(a) == [x[1]] + SentencesOf(a[1..]);
        assert [x[1]] + (SentencesOf(a[1..]) + SentencesOf(b))
            == ([x[1]] + SentencesOf(a[1..])) + SentencesOf(b);
      } else {
        assert SentencesOf(a + b) == SentencesOf(a[1..] + b);
        assert SentencesOf(a) == SentencesOf(a[1..]);
      }
    } else {
      assert a + b == b;
    }
  }

  /** A single line contributes its field 1 exactly when it has three fields. */
  lemma SentencesOfLine(line: string)
    ensures |Split(line, '|')| == 3 ==> SentencesOf([line]) == [Split(line, '|')[1]]
    ensures |Split(line, '|')| != 3 ==> SentencesOf([line]) == []
  {
    assert [line][1..] == [];
  }

  lemma LineSplits(e: Entry)
    requires CleanEntry(e)
    ensures '\n' !in Line(e)
    ensures Split(Line(e), '|') == [e.id, e.raw, e.normalized]
  {
    SplitAt(e.raw, e.normalized, '|');
    SplitNoSep(e.normalized, '|');
    assert Line(e) == e.id + ['|'] + (e.raw + ['|'] + e.normalized);
    SplitAt(e.id, e.raw + ['|'] + e.normalized, '|');
  }

  lemma {:induction false} RenderSplits(entries: seq<Entry>)
    requires forall i :: 0 <= i < |entries| ==> CleanEntry(entries[i])
    ensures SentencesOf(Split(Render(entries), '\n')) == Raws(entries)
    decreases |entries|
  {
    if |entries| == 0 {
      assert Split("", '\n') == [""];
      SentencesOfLine("");
    } else {
      var e := entries[0];
      LineSplits(e);
      SplitAt(Line(e), Render(entries[1..]), '\n');
      assert Render(entries) == Line(e) + ['\n'] + Render(entries[1..]);
      RenderSplits(entries[1..]);
      SentencesOfAppend([Line(e)], Split(Render(entries[1..]), '\n'));
      SentencesOfLine(Line(e));
    }
  }

  /** The lines of a rendered file, without their newlines. */
  function Lines(entries: seq<Entry>): (r: seq<string>)
    ensures |r| == |entries|
    ensures forall i :: 0 <= i < |r| ==> r[i] == Line(entries[i])
  {
    if |entries| == 0 then [] else [Line(entries[0])] + Lines(entries[1..])
  }

  /** Splitting a rendered file on newlines gives its lines, then the one
      empty piece after the final newline. */
  lemma {:induction false} RenderLines(entries: seq<Entry>)
    requires forall i :: 0 <= i < |entries| ==> CleanEntry(entries[i])
    ensures Split(Render(entries), '\n') == Lines(entries) + [""]
    decreases |entries|
  {
    if |entries| == 0 {
      assert Split("", '\n') == [""];
    } else {
      var e := entries[0];
      LineSplits(e);
      assert Render(entries) == Line(e) + ['\n'] + Render(entries[1..]);
      SplitAt(Line(e), Render(entries[1..]), '\n');
      RenderLines(entries[1..]);
      assert Lines(entries) == [Line(e)] + Lines(entries[1..]);
    }
  }

  /** Every line of a rendered file splits back into all three fields of its
      entry. */
  lemma RenderFields(entries: seq<Entry>, k: int)
    requires forall i :: 0 <= i < |entries| ==> CleanEntry(entries[i])
    requires 0 <= k < |entries|
    ensures |Split(Render(entries), '\n')| == |entries| + 1
    ensures Split(Split(Render(entries), '\n')[k], '|') == [entries[k].id, entries[k].raw, entries[k].normalized]
  {
    RenderLines(entries);
    LineSplits(entries[k]);
  }

  /** Parsing a rendered corpus gives back every entry's raw text, in order;
      the empty piece after the final newline is skipped. */
  lemma CorpusRoundTrip(entries: seq<Entry>)
    requires forall i :: 0 <= i < |entries| ==> CleanEntry(entries[i])
    ensures GetSentences(Render(entries)) == Raws(entries)
  {
    RenderSplits(entries);
  }
}

=== FILE: manifest.dfy ===
/** Recorded clips and the final manifest (`get_recorded_sentences`,
    `assemble`). The output directory is modelled by the set of names of its
    `.wav` files; `metadata.csv` lines share the corpus line shape. */
module Manifest {
  import opened Wrappers
  import opened PyStr
  import opened Corpus

  /** The sample rate resampled copies are written at; it is also part of
      their names and of every manifest identifier. */
  const LJS_RATE: nat := 22050

  /** A name the `.wav` glob of the output directory returns: ends in `.wav` and, as the shell
      pattern does not match hidden files, does not start with a dot. */
  predicate IsWavName(name: string)
  {
    |name| > 4 && name[|name| - 4..] == ".wav" && name[0] != '.'
  }

  /** `os.path.splitext(name)[0]` for such a name. */
  function Stem(name: string): string
    requires IsWavName(name)
  {
    name[..|name| - 4]
  }

  /** The sentence index a clip name encodes: the stem up to the first `_`,
      read by `int()`; `None` where `int()` raises. */
  function ClipIndex(name: string): Option<int>
    requires IsWavName(name)
  {
    ParseInt(Split(Stem(name), '_')[0])
  }

  /** The clip a commit writes for sentence `i`. */
  function ClipName(i: int): string
  {
    ShowInt(i) + ".wav"
  }

  /** Its copy resampled to `LJS_RATE`, named as `resample` names it. */
  function ResampledName(i: int): string
  {
    ShowInt(i) + "_" + ShowInt(LJS_RATE) + ".wav"
  }

  /** `get_recorded_sentences`: the set of indices the clip names encode;
      `None` when some name does not parse (Python raises `ValueError`). */
  function RecordedSentences(names: set<string>): (r: Option<set<int>>)
    ensures r.Some? <==> forall n :: n in names && IsWavName(n) ==> ClipIndex(n).Some?
    ensures r.Some? ==>
              forall i :: i in r.value <==> exists n :: n in names && IsWavName(n) && ClipIndex(n) == Some(i)
  {
    if forall n :: n in names && IsWavName(n) ==> ClipIndex(n).Some? then
      Some(set n | n in names && IsWavName(n) && ClipIndex(n).Some? :: ClipIndex(n).value)
    else None
  }

  /** A clip and its resampled copy both name their sentence. */
  lemma ClipNamesParse(i: int)
    ensures IsWavName(ClipName(i)) && ClipIndex(ClipName(i)) == Some(i)
    ensures IsWavName(ResampledName(i)) && ClipIndex(ResampledName(i)) == Some(i)
  {
    var s := ShowInt(i);
    var rate := ShowInt(LJS_RATE);
    assert '_' !in s;
    ParseShowInt(i);
    assert ClipName(i)[..|ClipName(i)| - 4] == s;
    SplitNoSep(s, '_');
    var r := ResampledName(i);
    assert r[..|r| - 4] == s + ['_'] + rate;
    SplitAt(s, rate, '_');
  }

  /** Adding wav files that all encode `i`, at least one of them, adds exactly
      `i` to the recorded set. */
  lemma RecordedAfterAdding(names: set<string>, added: set<string>, i: int)
    requires RecordedSentences(names).Some?
    requires forall n :: n in added ==> IsWavName(n) && ClipIndex(n) == Some(i)
    requires added != {}
    ensures RecordedSentences(names + added) == Some(RecordedSentences(names).value + {i})
  {
    var names' := names + added;
    var s := RecordedSentences(names).value;
    assert forall n :: n in names' && IsWavName(n) ==> ClipIndex(n).Some?;
    var r' := RecordedSentences(names');
    forall j ensures j in r'.value <==> j in s + {i} {
      RecordedMember(names, added, i, j);
    }
    assert r'.value == s + {i};
  }

  lemma RecordedMember(names: set<string>, added: set<string>, i: int, j: int)
    requires RecordedSentences(names).Some? && RecordedSentences(names + added).Some?
    requires forall n :: n in added ==> IsWavName(n) && ClipIndex(n) == Some(i)
    requires added != {}
    ensures j in RecordedSentences(names + added).value <==> j in RecordedSentences(names).value + {i}
  {
    var names' := names + added;
    if j == i {
      var a :| a in added;
      assert a in names' && IsWavName(a) && ClipIndex(a) == Some(i);
    } else if j in RecordedSentences(names).value {
      var n :| n in names && IsWavName(n) && ClipIndex(n) == Some(j);
      assert n in names';
    }
  }

  /** The names a commit writes for sentence `i`. */
  function CommitNames(i: int): set<string>
  {
    {ClipName(i), ResampledName(i)}
  }

  lemma CommitNamesEncode(i: int)
    ensures CommitNames(i) != {}
    ensures forall n :: n in CommitNames(i) ==> IsWavName(n) && ClipIndex(n) == Some(i)
  {
    ClipNamesParse(i);
    assert ClipName(i) in CommitNames(i);
    forall n | n in CommitNames(i) ensures IsWavName(n) && ClipIndex(n) == Some(i) {
      assert n == ClipName(i) || n == ResampledName(i);
    }
  }

  /** Writing a clip and its resampled copy for sentence `i` adds exactly `i`
      to the recorded set. */
  lemma RecordedAfterCommit(names: set<string>, i: int)
    requires RecordedSentences(names).Some?
    ensures RecordedSentences(names + CommitNames(i)) == Some(RecordedSentences(names).value + {i})
  {
    CommitNamesEncode(i);
    RecordedAfterAdding(names, CommitNames(i), i);
  }

  predicate StrictlyIncreasing(xs: seq<int>)
  {
    forall i, j :: 0 <= i < j < |xs| ==> xs[i] < xs[j]
  }

  /** A non-empty set has a member to pick with `:|`. The verifier does not
      draw that witness from `s != {}` alone, so the case split supplies it. */
  lemma NonEmptyHasMember(s: set<int>)
    requires s != {}
    ensures exists x :: x in s
  {
    if forall x :: x !in s {
      assert false;
    }
  }

  ghost function SetMin(s: set<int>): (m: int)
    requires s != {}
    ensures m in s
    ensures forall y :: y in s ==> m <= y
    decreases |s|
  {
    NonEmptyHasMember(s);
    var x :| x in s;
    if s == {x} then
      assert forall y :: y in s ==> y == x;
      x
    else
      var m := SetMin(s - {x});
      assert forall y :: y in s ==> y == x || y in s - {x};
      if x < m then x else m
  }

  /** `sorted(s)`: the elements of `s` in strictly ascending order. */
  ghost function SortedIndices(s: set<int>): (r: seq<int>)
    ensures |r| == |s|
    ensures forall x :: x in r <==> x in s
    // the same fact indexed, for proofs that quantify over positions
    ensures forall k :: 0 <= k < |r| ==> r[k] in s
    ensures StrictlyIncreasing(r)
    decreases |s|
  {
    if s == {} then []
    else
      var m := SetMin(s);
      var rest := SortedIndices(s - {m});
      PrependMin(s, m, rest);
      [m] + rest
  }

  /** Putting a set's least element in front of the ascending listing of the
      others lists the whole set in ascending order. */
  lemma PrependMin(s: set<int>, m: int, rest: seq<int>)
    requires m in s && forall y :: y in s ==> m <= y
    requires |rest| == |s - {m}| && StrictlyIncreasing(rest)
    requires forall x :: x in rest <==> x in s - {m}
    requires forall k :: 0 <= k < |rest| ==> rest[k] in s - {m}
    ensures |[m] + rest| == |s|
    ensures forall x :: x in [m] + rest <==> x in s
    // indexed form of the membership above, as `SortedIndices` states it
    ensures forall k :: 0 <= k < |[m] + rest| ==> ([m] + rest)[k] in s
    ensures StrictlyIncreasing([m] + rest)
  {
    var r := [m] + rest;
    assert |s - {m}| == |s| - 1;
    assert forall k :: 0 < k < |r| ==> r[k] == rest[k - 1];
  }

  lemma SortedIndicesUnfold(s: set<int>)
    requires s != {}
    ensures SortedIndices(s) == [SetMin(s)] + SortedIndices(s - {SetMin(s)})
  {
  }

  lemma AscendingHeadIsMin(s: set<int>, xs: seq<int>)
    requires StrictlyIncreasing(xs)
    requires forall x :: x in xs <==> x in s
    requires xs != []
    ensures s != {} && xs[0] == SetMin(s)
  {
    assert xs[0] in xs;
    var m := SetMin(s);
    assert m in xs;
    var j :| 0 <= j < |xs| && xs[j] == m;
    assert xs[0] <= xs[j];
  }

  lemma AscendingTail(s: set<int>, xs: seq<int>)
    requires StrictlyIncreasing(xs)
    requires forall x :: x in xs <==> x in s
    requires xs != []
    ensures StrictlyIncreasing(xs[1..])
    ensures forall x :: x in xs[1..] <==> x in s - {xs[0]}
  {
    var rest := xs[1..];
    forall i, j | 0 <= i < j < |rest| ensures rest[i] < rest[j] {
      assert rest[i] == xs[i + 1] && rest[j] == xs[j + 1];
    }
    forall x ensures x in rest <==> x in s - {xs[0]} {
      if x in rest {
        var k :| 0 <= k < |rest| && rest[k] == x;
        assert xs[k + 1] == x;
      }
      if x in s - {xs[0]} {
        assert x in xs;
        var k :| 0 <= k < |xs| && xs[k] == x;
        assert rest[k - 1] == x;
      }
    }
  }

  /** There is only one strictly ascending listing of a set. */
  lemma {:induction false} SortedIndicesUnique(s: set<int>, xs: seq<int>)
    requires StrictlyIncreasing(xs)
    requires forall x :: x in xs <==> x in s
    ensures xs == SortedIndices(s)
    decreases |xs|
  {
    if xs == [] {
      assert forall x :: x !in s;
      assert s == {};
    } else {
      AscendingHeadIsMin(s, xs);
      AscendingTail(s, xs);
      SortedIndicesUnique(s - {xs[0]}, xs[1..]);
      SortedIndicesCons(s, xs);
    }
  }

  /** A listing that starts with the least element and continues with the
      sorted rest is the sorted listing. */
  lemma SortedIndicesCons(s: set<int>, xs: seq<int>)
    requires s != {} && xs != [] && xs[0] == SetMin(s)
    requires xs[1..] == SortedIndices(s - {xs[0]})
    ensures xs == SortedIndices(s)
  {
    SortedIndicesUnfold(s);
    assert xs == [xs[0]] + xs[1..];
  }

  /** The manifest entry for sentence `i`: identifier `<i>_22050` and the
      sentence text twice. */
  function ManifestEntry(i: int, sentences: seq<string>): Entry
    requires -|sentences| <= i < |sentences|
  {
    Entry(ShowInt(i) + "_" + ShowInt(LJS_RATE), PyIndex(sentences, i), PyIndex(sentences, i))
  }

  function ManifestEntries(idxs: seq<int>, sentences: seq<string>): (es: seq<Entry>)
    requires forall k :: 0 <= k < |idxs| ==> -|sentences| <= idxs[k] < |sentences|
    ensures |es| == |idxs|
    ensures forall k :: 0 <= k < |es| ==> es[k] == ManifestEntry(idxs[k], sentences)
  {
    if |idxs| == 0 then []
    else
      var tail := idxs[1..];
      assert forall k :: 0 <= k < |tail| ==> tail[k] == idxs[k + 1];
      var rest := ManifestEntries(tail, sentences);
      var es := [ManifestEntry(idxs[0], sentences)] + rest;
      assert forall k :: 1 <= k < |es| ==> es[k] == rest[k - 1];
      es
  }

  /** Every recorded index names a sentence (Python indexing, so negative
      indices count from the end). */
  predicate InRange(recorded: set<int>, sentences: seq<string>)
  {
    forall i :: i in recorded ==> -|sentences| <= i < |sentences|
  }

  /** `assemble`: the text written to `metadata.csv`, one line per recorded
      index in ascending order. */
  ghost function Assemble(recorded: set<int>, sentences: seq<string>): string
    requires InRange(recorded, sentences)
  {
    var idxs := SortedIndices(recorded);
    assert forall k :: 0 <= k < |idxs| ==> idxs[k] in recorded;
    Render(ManifestEntries(idxs, sentences))
  }

  /** A manifest identifier fits in one field. */
  lemma IdClean(i: int)
    ensures Clean(ShowInt(i) + "_" + ShowInt(LJS_RATE))
  {
    var a := ShowInt(i);
    var b := ShowInt(LJS_RATE);
    assert '|' !in a && '\n' !in a;
    assert '|' !in b && '\n' !in b;
  }

  /** The manifest is itself a corpus: reading it with `get_sentences` yields
      the text of each recorded sentence once, in ascending index order. */
  lemma ManifestRoundTrip(recorded: set<int>, sentences: seq<string>)
    requires InRange(recorded, sentences)
    requires forall i :: 0 <= i < |sentences| ==> Clean(sentences[i])
    ensures |GetSentences(Assemble(recorded, sentences))| == |recorded|
    ensures forall k :: 0 <= k < |recorded| ==>
              GetSentences(Assemble(recorded, sentences))[k] == PyIndex(sentences, SortedIndices(recorded)[k])
  {
    var idxs := SortedIndices(recorded);
    assert forall k :: 0 <= k < |idxs| ==> idxs[k] in recorded;
    var es := ManifestEntries(idxs, sentences);
    ManifestEntriesClean(idxs, sentences);
    CorpusRoundTrip(es);
  }

  lemma RateText()
    ensures ShowInt(LJS_RATE) == "22050"
  {
    assert ShowNat(2) == "2";
    assert ShowNat(22) == "22";
    assert ShowNat(220) == "220";
    assert ShowNat(2205) == "2205";
  }

  /** The entries of clean sentences render to clean lines. */
  lemma ManifestEntriesClean(idxs: seq<int>, sentences: seq<string>)
    requires forall k :: 0 <= k < |idxs| ==> -|sentences| <= idxs[k] < |sentences|
    requires forall i :: 0 <= i < |sentences| ==> Clean(sentences[i])
    ensures forall k :: 0 <= k < |idxs| ==> CleanEntry(ManifestEntries(idxs, sentences)[k])
  {
    var es := ManifestEntries(idxs, sentences);
    forall k | 0 <= k < |es| ensures CleanEntry(es[k]) {
      IdClean(idxs[k]);
    }
  }

  /** Line `k` of the rendered entries splits into the identifier of
      `idxs[k]` and its sentence twice. */
  lemma ManifestEntryFields(idxs: seq<int>, sentences: seq<string>, k: int)
    requires forall j :: 0 <= j < |idxs| ==> -|sentences| <= idxs[j] < |sentences|
    requires forall i :: 0 <= i < |sentences| ==> Clean(sentences[i])
    requires 0 <= k < |idxs|
    ensures |Split(Render(ManifestEntries(idxs, sentences)), '\n')| == |idxs| + 1
    ensures Split(Split(Render(ManifestEntries(idxs, sentences)), '\n')[k], '|')
            == [ShowInt(idxs[k]) + "_22050", PyIndex(sentences, idxs[k]), PyIndex(sentences, idxs[k])]
  {
    var es := ManifestEntries(idxs, sentences);
    ManifestEntriesClean(idxs, sentences);
    RenderFields(es, k);
    var e := es[k];
    assert e == ManifestEntry(idxs[k], sentences);
    IdText(idxs[k]);
  }

  lemma IdText(i: int)
    ensures ShowInt(i) + "_" + ShowInt(LJS_RATE) == ShowInt(i) + "_22050"
  {
    RateText();
  }

  /** Line `k` of the manifest ties the `k`-th recorded index, in ascending
      order, to its sentence: it splits into the identifier `<idx>_22050`
      and that sentence's text twice. The file ends with a newline. */
  lemma ManifestLines(recorded: set<int>, sentences: seq<string>)
    requires InRange(recorded, sentences)
    requires forall i :: 0 <= i < |sentences| ==> Clean(sentences[i])
    ensures |Split(Assemble(recorded, sentences), '\n')| == |recorded| + 1
    ensures Split(Assemble(recorded, sentences), '\n')[|recorded|] == ""
    ensures forall k :: 0 <= k < |recorded| ==>
              && -|sentences| <= SortedIndices(recorded)[k] < |sentences|
              && Split(Split(Assemble(recorded, sentences), '\n')[k], '|')
                 == [ShowInt(SortedIndices(recorded)[k]) + "_22050",
                     PyIndex(sentences, SortedIndices(recorded)[k]),
                     PyIndex(sentences, SortedIndices(recorded)[k])]
  {
    var idxs := SortedIndices(recorded);
    assert forall k :: 0 <= k < |idxs| ==> idxs[k] in recorded;
    var es := ManifestEntries(idxs, sentences);
    assert Assemble(recorded, sentences) == Render(es);
    ManifestEntriesClean(idxs, sentences);
    RenderLines(es);
    forall k | 0 <= k < |recorded|
      ensures Split(Split(Render(es), '\n')[k], '|')
              == [ShowInt(idxs[k]) + "_22050", PyIndex(sentences, idxs[k]), PyIndex(sentences, idxs[k])]
    {
      ManifestEntryFields(idxs, sentences, k);
    }
  }

  /** A clip name `int()` cannot read makes `get_recorded_sentences` raise. */
  lemma SeparatorClipNameRaises()
    ensures RecordedSentences({"\U{1C}5.wav"}) == None
  {
    var n := "\U{1C}5.wav";
    assert IsWavName(n);
    assert Stem(n) == "\U{1C}5";
    SplitNoSep("\U{1C}5", '_');
    ParseIntPadding();
    assert ClipIndex(n) == None;
  }

  lemma SingleClipEntries(sentences: seq<string>)
    requires |sentences| >= 1
    ensures InRange({0}, sentences)
    ensures Assemble({0}, sentences) == Render([ManifestEntry(0, sentences)])
  {
    SortedIndicesUnique({0}, [0]);
    assert ManifestEntries([0], sentences) == [ManifestEntry(0, sentences)];
  }

  /** The manifest of a corpus with only sentence 0 recorded. */
  lemma SingleClipManifest(sentences: seq<string>)
    requires |sentences| >= 1
    ensures InRange({0}, sentences)
    ensures Assemble({0}, sentences) == "0_22050|" + sentences[0] + "|" + sentences[0] + "\n"
  {
    SingleClipEntries(sentences);
    IdText(0);
    assert ShowInt(0) == "0";
    var e := ManifestEntry(0, sentences);
    assert e == Entry("0_22050", sentences[0], sentences[0]);
    assert Render([e]) == Line(e) + "\n" + Render([]);
    assert "0_22050" + "|" == "0_22050|";
  }
}

=== FILE: progress.dfy ===
/** The progress cursor kept in `output/progress.txt` (`write_progress`,
    `get_progress`): the decimal text of the index of the next sentence. */
module ProgressStore {
  import opened Wrappers
  import opened PyStr
  import opened PyMath

  /** The progress file's content; `None` when the file does not exist. */
  type File = Option<string>

  /** What a read returns and the file as the read leaves it. */
  datatype Read = Read(value: int, file: File)

  /** `write_progress(n)`: the file now holds `str(n)`, which reads back as `n`. */
  function WriteProgress(n: int): (f: File)
    ensures f.Some? && ParseInt(f.value) == Some(n)
  {
    ParseShowInt(n);
    Some(ShowInt(n))
  }

  /** `get_progress()`: the stored integer when the file exists and parses;
      otherwise 0, with the file rewritten to hold `0`. */
  function GetProgress(f: File): (r: Read)
    ensures r.file.Some? && ParseInt(r.file.value) == Some(r.value)
    ensures f.Some? && ParseInt(f.value).Some? ==> r.file == f
    ensures r.file != f ==> r == Read(0, WriteProgress(0))
  {
    if f.Some? && ParseInt(f.value).Some? then Read(ParseInt(f.value).value, f)
    else Read(0, WriteProgress(0))
  }

  /** The cursor a read would report. */
  function Cursor(f: File): int
  {
    GetProgress(f).value
  }

  /** The `undo` command: store the cursor minus one, floored at 0. */
  function Undo(f: File): (g: File)
    ensures Cursor(g) == Max(0, Cursor(f) - 1)
    ensures Cursor(g) >= 0
    ensures Cursor(f) <= 0 ==> Cursor(g) == 0
  {
    WriteProgress(Max(0, GetProgress(f).value - 1))
  }

  /** Every integer written is read back unchanged, and the read leaves the
      file as written. */
  lemma ReadAfterWrite(n: int)
    ensures GetProgress(WriteProgress(n)) == Read(n, WriteProgress(n))
  {
  }

  /** A missing or unparsable file reads as 0 and is reset to `0`. */
  lemma CorruptReadsZero(f: File)
    requires f.None? || ParseInt(f.value).None?
    ensures GetProgress(f) == Read(0, Some("0"))
  {
    assert ShowInt(0) == "0";
  }

  /** A progress file holding `\x1c5` is not a number to `int()`: it reads
      as 0 and is reset. */
  lemma SeparatorPaddedReadsZero()
    ensures GetProgress(Some("\U{1C}5")) == Read(0, Some("0"))
  {
    ParseIntPadding();
    CorruptReadsZero(Some("\U{1C}5"));
  }

  /** Reading twice is the same as reading once: the repair is itself a valid
      file holding the value the first read reported. */
  lemma ReadIsStable(f: File)
    ensures GetProgress(GetProgress(f).file) == GetProgress(f)
  {
  }
}

=== FILE: pymath.dfy ===
/** Python's built-in `max` and `min` on two integers. */
module PyMath {

  function Max(a: int, b: int): int
  {
    if a >= b then a else b
  }

  function Min(a: int, b: int): int
  {
    if a <= b then a else b
  }
}

=== FILE: pystr.dfy ===
/** The few Python string operations the recorder relies on: `str.split` with a
    one-character separator, `str(int)`, `int(str)` with the white space it
    skips, and indexing a list with a possibly negative index. */
module PyStr {
  import opened Wrappers

  /** `sep.join(parts)`. */
  function Join(parts: seq<string>, sep: char): string
  {
    if |parts| == 0 then ""
    else if |parts| == 1 then parts[0]
    else parts[0] + [sep] + Join(parts[1..], sep)
  }

  /** `s.split(sep)`: always at least one piece, no piece holds the separator,
      and joining the pieces back gives `s`. */
  function Split(s: string, sep: char): (parts: seq<string>)
    ensures |parts| >= 1
    ensures forall i :: 0 <= i < |parts| ==> sep !in parts[i]
    ensures Join(parts, sep) == s
    decreases |s|
  {
    if |s| == 0 then [""]
    else
      var rest := Split(s[1..], sep);
      if s[0] == sep then
        assert ([""] + rest)[1..] == rest;
        [""] + rest
      else
        var parts := [[s[0]] + rest[0]] + rest[1..];
        assert parts[1..] == rest[1..];
        assert s == [s[0]] + s[1..];
        parts
  }

  lemma JoinThree(parts: seq<string>, sep: char)
    requires |parts| == 3
    ensures Join(parts, sep) == parts[0] + [sep] + parts[1] + [sep] + parts[2]
  {
    var tail := parts[1..];
    assert tail[1..] == [parts[2]];
    assert Join(tail, sep) == parts[1] + [sep] + parts[2];
  }

  lemma {:induction false} SplitNoSep(a: string, sep: char)
    requires sep !in a
    ensures Split(a, sep) == [a]
    decreases |a|
  {
    if |a| > 0 {
      assert sep !in a[1..];
      SplitNoSep(a[1..], sep);
      assert [a[0]] + a[1..] == a;
    }
  }

  /** A separator after a separator-free prefix ends the first piece there. */
  lemma {:induction false} SplitAt(a: string, b: string, sep: char)
    requires sep !in a
    ensures Split(a + [sep] + b, sep) == [a] + Split(b, sep)
    decreases |a|
  {
    var s := a + [sep] + b;
    if |a| == 0 {
      assert s[1..] == b;
    } else {
      assert s[1..] == a[1..] + [sep] + b;
      assert sep !in a[1..];
      SplitAt(a[1..], b, sep);
      assert [a[0]] + a[1..] == a;
    }
  }

  /** Splitting undoes joining when no piece holds the separator. */
  lemma {:induction false} SplitJoin(parts: seq<string>, sep: char)
    requires |parts| >= 1
    requires forall i :: 0 <= i < |parts| ==> sep !in parts[i]
    ensures Split(Join(parts, sep), sep) == parts
    decreases |parts|
  {
    if |parts| == 1 {
      SplitNoSep(parts[0], sep);
    } else {
      SplitJoin(parts[1..], sep);
      SplitAt(parts[0], Join(parts[1..], sep), sep);
      assert [parts[0]] + parts[1..] == parts;
    }
  }

  /** The ASCII characters `int()` skips around a number: space and `\t`
      to `\r`. The separators `\x1c` to `\x1f`, which `str.strip()` would
      remove, are not among them. */
  predicate IsSpace(c: char)
  {
    c == ' ' || ('\t' <= c <= '\r')
  }

  function StripLeft(s: string): string
  {
    if |s| > 0 && IsSpace(s[0]) then StripLeft(s[1..]) else s
  }

  function StripRight(s: string): string
  {
    if |s| > 0 && IsSpace(s[|s| - 1]) then StripRight(s[..|s| - 1]) else s
  }

  /** The white space `int()` ignores on both sides of its argument. */
  function Strip(s: string): string
  {
    StripRight(StripLeft(s))
  }

  lemma {:induction false} AllSpaceStrips(s: string)
    requires forall i :: 0 <= i < |s| ==> IsSpace(s[i])
    ensures StripLeft(s) == []
    decreases |s|
  {
    if |s| > 0 {
      assert forall i :: 0 <= i < |s| - 1 ==> s[1..][i] == s[i + 1];
      AllSpaceStrips(s[1..]);
    }
  }

  predicate IsDigit(c: char)
  {
    '0' <= c <= '9'
  }

  predicate AllDigits(s: string)
  {
    forall i :: 0 <= i < |s| ==> IsDigit(s[i])
  }

  function DigitChar(d: nat): (c: char)
    requires d < 10
    ensures IsDigit(c)
  {
    ('0' as int + d) as char
  }

  /** The value of a string of decimal digits, most significant first. */
  function DigitsValue(s: string): nat
    requires AllDigits(s)
  {
    if |s| == 0 then 0
    else DigitsValue(s[..|s| - 1]) * 10 + (s[|s| - 1] as int - '0' as int)
  }

  /** `str(n)` for `n >= 0`: decimal digits with no leading zero. */
  function ShowNat(n: nat): (s: string)
    ensures |s| >= 1 && AllDigits(s)
    ensures s[0] == '0' <==> n == 0
  {
    if n < 10 then [DigitChar(n)]
    else
      var init := ShowNat(n / 10);
      assert (init + [DigitChar(n % 10)])[0] == init[0];
      init + [DigitChar(n % 10)]
  }

  /** `str(n)`: a minus sign exactly for negative numbers, then the digits,
      with no leading zero except in `0` itself. */
  function ShowInt(n: int): (s: string)
    ensures |s| >= 1
    ensures forall i :: 0 <= i < |s| ==> IsDigit(s[i]) || (i == 0 && s[i] == '-')
    ensures s[0] == '-' <==> n < 0
    ensures s[0] == '0' ==> s == "0"
    ensures n < 0 ==> |s| >= 2 && s[1] != '0'
  {
    if n < 0 then "-" + ShowNat(-n)
    else
      var s := ShowNat(n);
      assert s[0] == '0' ==> n == 0 && s == [DigitChar(0)];
      s
  }

  function ParseNat(s: string): Option<nat>
  {
    if |s| > 0 && AllDigits(s) then Some(DigitsValue(s)) else None
  }

  /** `int(s)`: surrounding white space, then an optional sign and at least one
      decimal digit; anything else is refused (Python raises `ValueError`). */
  function ParseInt(s: string): (r: Option<int>)
    ensures |s| > 0 && AllDigits(s) ==> r == Some(DigitsValue(s))
    ensures (forall i :: 0 <= i < |s| ==> IsSpace(s[i])) ==> r == None
  {
    var t := Strip(s);
    assert |s| > 0 && AllDigits(s) ==> !IsSpace(s[0]) && !IsSpace(s[|s| - 1]) && t == s;
    assert (forall i :: 0 <= i < |s| ==> IsSpace(s[i])) ==> t == [] by {
      if forall i :: 0 <= i < |s| ==> IsSpace(s[i]) {
        AllSpaceStrips(s);
      }
    }
    if |t| > 0 && (t[0] == '-' || t[0] == '+') then
      match ParseNat(t[1..])
      case None => None
      case Some(v) =>
        var x: int := if t[0] == '-' then -(v as int) else v as int;
        Some(x)
    else
      match ParseNat(t)
      case None => None
      case Some(v) =>
        var x: int := v;
        Some(x)
  }

  lemma {:induction false} DigitsShowNat(n: nat)
    ensures DigitsValue(ShowNat(n)) == n
  {
    if n >= 10 {
      var s := ShowNat(n);
      assert s[..|s| - 1] == ShowNat(n / 10);
      DigitsShowNat(n / 10);
    }
  }

  /** Reading back what `str` wrote gives the same integer, for every integer. */
  lemma ParseShowInt(n: int)
    ensures ParseInt(ShowInt(n)) == Some(n)
  {
    var s := ShowInt(n);
    assert !IsSpace(s[0]);
    assert StripLeft(s) == s;
    assert !IsSpace(s[|s| - 1]);
    assert StripRight(s) == s;
    if n < 0 {
      assert s[1..] == ShowNat(-n);
      DigitsShowNat(-n);
      assert ParseNat(s[1..]) == Some(-n);
    } else {
      DigitsShowNat(n);
      assert ParseNat(s) == Some(n);
    }
  }

  /** `int()` skips a newline and spaces around the digits, but refuses a
      number next to an information separator such as `\x1c`. */
  lemma ParseIntPadding()
    ensures ParseInt(" 5\n") == Some(5)
    ensures ParseInt("\U{1C}5") == None
  {
    assert StripLeft(" 5\n") == "5\n";
    assert StripRight("5\n") == "5";
    assert ParseNat("5") == Some(5);
    assert StripLeft("\U{1C}5") == "\U{1C}5";
    assert StripRight("\U{1C}5") == "\U{1C}5";
    assert !IsDigit("\U{1C}5"[0]);
  }

  /** `s[i]` on a Python list, where `-|s| <= i < 0` counts from the end. */
  function PyIndex<T>(s: seq<T>, i: int): (x: T)
    requires -|s| <= i < |s|
    ensures x in s
    ensures 0 <= i ==> x == s[i]
    ensures i < 0 ==> x == s[|s| + i]
  {
    if i >= 0 then s[i] else s[|s| + i]
  }
}

=== FILE: session.dfy ===
/** The command loop of `main` and the recording pass it runs for a sentence.
    Operator input arrives as turns; what a capture yields after
    `filter_chunks` and what the operator answers at the review prompt arrive
    as takes. Audio capture, playback and clip contents are not modelled: a
    committed pass shows as the clip files of its sentence existing. */
module Session {
  import opened Wrappers
  import opened PyMath
  import opened PyStr
  import opened ProgressStore
  import opened Manifest

  /** One round of the inner recording loop. */
  datatype Take =
    | TooShort                         // fewer than five chunks: `filter_chunks` raises `IndexError`
    | Garbage                          // `filter_chunks` rejected the capture
    | Reviewed(answer: Option<string>) // kept and replayed; the review answer, `None` on EOF

  /** A take that leaves the inner loop: a capture too short to trim, or one
      reviewed and not answered `r`. */
  predicate Ends(t: Take)
  {
    t.TooShort? || (t.Reviewed? && t.answer != Some("r"))
  }

  /** How a recording pass ends: `Raised` when a capture was too short to
      trim; `Unfinished` when the takes run out first. */
  datatype PassEnd = Skipped | Committed | Raised | Unfinished

  /** The inner recording loop: a capture too short to trim raises; garbage
      captures and `r` answers go round again; `s` skips; any other answer,
      `None` included, commits. */
  function PassResult(takes: seq<Take>): PassEnd
  {
    if |takes| == 0 then Unfinished
    else if takes[0].TooShort? then Raised
    else if !Ends(takes[0]) then PassResult(takes[1..])
    else if takes[0].answer == Some("s") then Skipped
    else Committed
  }

  /** `j` is the first take that ends the pass. */
  ghost predicate FirstEnd(takes: seq<Take>, j: int)
  {
    0 <= j < |takes| && Ends(takes[j]) && forall i :: 0 <= i < j ==> !Ends(takes[i])
  }

  /** The pass is decided by its first ending take alone: it raises when that
      capture was too short, is skipped when that take's answer is `s`, and
      is committed for any other answer, including EOF. */
  lemma {:induction false} PassDecidedByFirstEnd(takes: seq<Take>, j: int)
    requires FirstEnd(takes, j)
    ensures PassResult(takes) == (if takes[j].TooShort? then Raised
                                  else if takes[j].answer == Some("s") then Skipped
                                  else Committed)
    decreases j
  {
    if j > 0 {
      assert !Ends(takes[0]);
      assert FirstEnd(takes[1..], j - 1);
      PassDecidedByFirstEnd(takes[1..], j - 1);
    }
  }

  /** Without an ending take the pass never finishes. */
  lemma {:induction false} PassUnfinishedWithoutEnd(takes: seq<Take>)
    requires forall i :: 0 <= i < |takes| ==> !Ends(takes[i])
    ensures PassResult(takes) == Unfinished
    decreases |takes|
  {
    if |takes| > 0 {
      assert forall i :: 0 <= i < |takes| - 1 ==> takes[1..][i] == takes[i + 1];
      PassUnfinishedWithoutEnd(takes[1..]);
    }
  }

  /** Conversely, a pass that has not finished has met no ending take. */
  lemma {:induction false} UnfinishedMeansNoEnd(takes: seq<Take>)
    requires PassResult(takes) == Unfinished
    ensures forall i :: 0 <= i < |takes| ==> !Ends(takes[i])
    decreases |takes|
  {
    if |takes| > 0 {
      assert !Ends(takes[0]);
      UnfinishedMeansNoEnd(takes[1..]);
      forall i | 0 < i < |takes| ensures !Ends(takes[i]) {
        assert takes[i] == takes[1..][i - 1];
      }
    }
  }

  /** Garbage captures and redos before a pass's takes change nothing. */
  lemma {:induction false} RetriesChangeNothing(retries: seq<Take>, takes: seq<Take>)
    requires forall i :: 0 <= i < |retries| ==> !Ends(retries[i])
    ensures PassResult(retries + takes) == PassResult(takes)
    decreases |retries|
  {
    if |retries| > 0 {
      assert (retries + takes)[0] == retries[0];
      assert (retries + takes)[1..] == retries[1..] + takes;
      RetriesChangeNothing(retries[1..], takes);
    } else {
      assert retries + takes == takes;
    }
  }

  /** What the session persists: the progress file, the names of the `.wav`
      files in the output directory and `metadata.csv` (`None` if absent). */
  datatype State = State(progress: File, wavs: set<string>, metadata: Option<string>)

  /** `Ready` for the next command; `Quit` on EOF at a prompt; `Done` when the
      corpus is exhausted; `Crashed` on an uncaught Python exception;
      `Recording` when a pass has not finished. */
  datatype Status = Ready | Quit | Done | Crashed | Recording

  datatype Outcome = Outcome(state: State, status: Status)

  /** One iteration of the command loop: the command (`None` on EOF) and, for
      a recording command, the answer to the practice prompt and the takes. */
  datatype Turn = Turn(command: Option<string>, practice: Option<string>, takes: seq<Take>)

  /** Every command other than the three named ones starts a recording pass,
      the empty line included. */
  predicate IsRecordCommand(c: string)
  {
    c != "devices" && c != "undo" && c != "assemble"
  }

  /** A fresh session: no progress file, no clips, no manifest. */
  function Initial(): State
  {
    State(None, {}, None)
  }

  /** The `assemble` command: write the manifest of the recorded clips;
      Python raises when a clip name does not parse or names no sentence. */
  ghost function AssembleCommand(st: State, sentences: seq<string>): (o: Outcome)
    ensures o.state.progress == st.progress && o.state.wavs == st.wavs
    ensures o.status == Ready <==> RecordedSentences(st.wavs).Some? && InRange(RecordedSentences(st.wavs).value, sentences)
    ensures o.status != Ready ==> o == Outcome(st, Crashed)
  {
    var recorded := RecordedSentences(st.wavs);
    if recorded.None? || !InRange(recorded.value, sentences) then Outcome(st, Crashed)
    else Outcome(st.(metadata := Some(Assemble(recorded.value, sentences))), Ready)
  }

  /** The recording flow a command other than the named ones starts: read
      the cursor, stop at the end of the corpus, then run one pass for the
      sentence at the cursor. */
  function RecordCommand(st: State, sentences: seq<string>, practice: Option<string>, takes: seq<Take>): (o: Outcome)
    ensures o.state.metadata == st.metadata
    ensures o.status != Ready ==> o.state.wavs == st.wavs
    ensures Cursor(st.progress) >= |sentences| ==> o.status == Done
    ensures Cursor(st.progress) < -|sentences| ==> o.status == Crashed
    ensures -|sentences| <= Cursor(st.progress) < |sentences| && practice.Some? && PassResult(takes) == Raised ==>
              o.status == Crashed
  {
    var read := GetProgress(st.progress);
    var st1 := st.(progress := read.file);
    var idx := read.value;
    if idx >= |sentences| then Outcome(st1, Done)
    else if idx < -|sentences| then Outcome(st1, Crashed)
    else if practice.None? then Outcome(st1, Quit)
    else
      match PassResult(takes)
      case Unfinished => Outcome(st1, Recording)
      case Raised => Outcome(st1, Crashed)
      case Skipped => Outcome(st1.(progress := WriteProgress(idx + 1)), Ready)
      case Committed =>
        Outcome(State(WriteProgress(idx + 1), st.wavs + CommitNames(idx), st.metadata), Ready)
  }

  /** One iteration of the loop in `main`. */
  ghost function Step(st: State, sentences: seq<string>, turn: Turn): (o: Outcome)
    ensures turn.command.None? ==> o == Outcome(st, Quit)
    ensures turn.command == Some("devices") ==> o == Outcome(st, Ready)
    ensures turn.command == Some("undo") ==> o == Outcome(st.(progress := Undo(st.progress)), Ready)
    ensures turn.command == Some("assemble") ==>
              o.state.progress == st.progress && o.state.wavs == st.wavs
              && (o.status == Ready || o.status == Crashed)
    ensures o.state.metadata != st.metadata ==> turn.command == Some("assemble")
  {
    match turn.command
    case None => Outcome(st, Quit)
    case Some(c) =>
      if c == "devices" then Outcome(st, Ready)
      else if c == "undo" then Outcome(st.(progress := Undo(st.progress)), Ready)
      else if c == "assemble" then AssembleCommand(st, sentences)
      else RecordCommand(st, sentences, turn.practice, turn.takes)
  }

  /** The loop over a whole input; when the input is exhausted the next
      prompt reads EOF and the session quits. */
  ghost function Run(st: State, sentences: seq<string>, turns: seq<Turn>): (o: Outcome)
    ensures o.status != Ready
    decreases |turns|
  {
    if |turns| == 0 then Outcome(st, Quit)
    else
      var o := Step(st, sentences, turns[0]);
      if o.status == Ready then Run(o.state, sentences, turns[1..]) else o
  }

  lemma StepAssembles(st: State, sentences: seq<string>, turn: Turn)
    requires turn.command == Some("assemble")
    ensures Step(st, sentences, turn) == AssembleCommand(st, sentences)
  {
  }

  lemma StepRecords(st: State, sentences: seq<string>, turn: Turn)
    requires turn.command.Some? && IsRecordCommand(turn.command.value)
    ensures Step(st, sentences, turn) == RecordCommand(st, sentences, turn.practice, turn.takes)
  {
  }

  /** A recording pass for the sentence at the cursor, negative cursors
      counting from the end, ends with the cursor one past it; a skip adds no
      clip, a commit adds exactly that sentence's clip, and an unfinished
      pass or a capture too short to trim changes neither. */
  lemma RecordingPass(st: State, sentences: seq<string>, turn: Turn)
    requires turn.command.Some? && IsRecordCommand(turn.command.value)
    requires -|sentences| <= Cursor(st.progress) < |sentences|
    requires turn.practice.Some?
    ensures PassResult(turn.takes) == Skipped ==>
              && Step(st, sentences, turn).status == Ready
              && Cursor(Step(st, sentences, turn).state.progress) == Cursor(st.progress) + 1
              && Step(st, sentences, turn).state.wavs == st.wavs
    ensures PassResult(turn.takes) == Committed ==>
              && Step(st, sentences, turn).status == Ready
              && Cursor(Step(st, sentences, turn).state.progress) == Cursor(st.progress) + 1
    ensures PassResult(turn.takes) == Committed && RecordedSentences(st.wavs).Some? ==>
              RecordedSentences(Step(st, sentences, turn).state.wavs)
                 == Some(RecordedSentences(st.wavs).value + {Cursor(st.progress)})
    ensures PassResult(turn.takes) == Unfinished ==>
              && Step(st, sentences, turn).status == Recording
              && Cursor(Step(st, sentences, turn).state.progress) == Cursor(st.progress)
              && Step(st, sentences, turn).state.wavs == st.wavs
    ensures PassResult(turn.takes) == Raised ==>
              && Step(st, sentences, turn).status == Crashed
              && Cursor(Step(st, sentences, turn).state.progress) == Cursor(st.progress)
              && Step(st, sentences, turn).state.wavs == st.wavs
  {
    var o := Step(st, sentences, turn);
    StepRecords(st, sentences, turn);
    match PassResult(turn.takes)
    case Skipped =>
      SkipOutcome(st, sentences, turn.practice.value, turn.takes);
    case Committed =>
      CommitOutcome(st, sentences, turn.practice.value, turn.takes);
      if RecordedSentences(st.wavs).Some? {
        RecordedAfterCommit(st.wavs, Cursor(st.progress));
      }
    case Unfinished =>
      UnfinishedOutcome(st, sentences, turn.practice.value, turn.takes);
    case Raised =>
      RaisedOutcome(st, sentences, turn.practice.value, turn.takes);
  }

  lemma SkipOutcome(st: State, sentences: seq<string>, practice: string, takes: seq<Take>)
    requires -|sentences| <= Cursor(st.progress) < |sentences|
    requires PassResult(takes) == Skipped
    ensures RecordCommand(st, sentences, Some(practice), takes).status == Ready
    ensures Cursor(RecordCommand(st, sentences, Some(practice), takes).state.progress) == Cursor(st.progress) + 1
    ensures RecordCommand(st, sentences, Some(practice), takes).state.wavs == st.wavs
  {
    var idx := Cursor(st.progress);
    var st1 := st.(progress := GetProgress(st.progress).file);
    assert RecordCommand(st, sentences, Some(practice), takes)
        == Outcome(st1.(progress := WriteProgress(idx + 1)), Ready);
    ReadAfterWrite(idx + 1);
  }

  lemma CommitOutcome(st: State, sentences: seq<string>, practice: string, takes: seq<Take>)
    requires -|sentences| <= Cursor(st.progress) < |sentences|
    requires PassResult(takes) == Committed
    ensures RecordCommand(st, sentences, Some(practice), takes).status == Ready
    ensures Cursor(RecordCommand(st, sentences, Some(practice), takes).state.progress) == Cursor(st.progress) + 1
    ensures RecordCommand(st, sentences, Some(practice), takes).state.wavs == st.wavs + CommitNames(Cursor(st.progress))
  {
    var idx := Cursor(st.progress);
    assert RecordCommand(st, sentences, Some(practice), takes)
        == Outcome(State(WriteProgress(idx + 1), st.wavs + CommitNames(idx), st.metadata), Ready);
    ReadAfterWrite(idx + 1);
  }

  lemma UnfinishedOutcome(st: State, sentences: seq<string>, practice: string, takes: seq<Take>)
    requires -|sentences| <= Cursor(st.progress) < |sentences|
    requires PassResult(takes) == Unfinished
    ensures RecordCommand(st, sentences, Some(practice), takes).status == Recording
    ensures Cursor(RecordCommand(st, sentences, Some(practice), takes).state.progress) == Cursor(st.progress)
    ensures RecordCommand(st, sentences, Some(practice), takes).state.wavs == st.wavs
  {
    var read := GetProgress(st.progress);
    assert RecordCommand(st, sentences, Some(practice), takes) == Outcome(st.(progress := read.file), Recording);
    ReadIsStable(st.progress);
  }

  lemma RaisedOutcome(st: State, sentences: seq<string>, practice: string, takes: seq<Take>)
    requires -|sentences| <= Cursor(st.progress) < |sentences|
    requires PassResult(takes) == Raised
    ensures RecordCommand(st, sentences, Some(practice), takes).status == Crashed
    ensures Cursor(RecordCommand(st, sentences, Some(practice), takes).state.progress) == Cursor(st.progress)
    ensures RecordCommand(st, sentences, Some(practice), takes).state.wavs == st.wavs
  {
    var read := GetProgress(st.progress);
    assert RecordCommand(st, sentences, Some(practice), takes) == Outcome(st.(progress := read.file), Crashed);
    ReadIsStable(st.progress);
  }

  /** Once the cursor is past the last sentence a recording command ends the
      session, and nothing but a repaired progress file changes. */
  lemma FinishedSessionStops(st: State, sentences: seq<string>, turn: Turn)
    requires turn.command.Some? && IsRecordCommand(turn.command.value)
    requires Cursor(st.progress) >= |sentences|
    ensures Step(st, sentences, turn).status == Done
    ensures Cursor(Step(st, sentences, turn).state.progress) == Cursor(st.progress)
    ensures Step(st, sentences, turn).state.wavs == st.wavs
    ensures Step(st, sentences, turn).state.metadata == st.metadata
    ensures st.progress.Some? && ParseInt(st.progress.value).Some? ==> Step(st, sentences, turn).state == st
  {
  }

  /** `assemble` is a view: running it again straight away rewrites the same
      manifest and leaves everything else as it was. */
  lemma AssembleIdempotent(st: State, sentences: seq<string>, turn: Turn)
    requires turn.command == Some("assemble")
    requires Step(st, sentences, turn).status == Ready
    ensures Step(Step(st, sentences, turn).state, sentences, turn) == Step(st, sentences, turn)
  {
    StepAssembles(st, sentences, turn);
    var o := AssembleCommand(st, sentences);
    StepAssembles(o.state, sentences, turn);
  }

  /** What one command can change: `undo` moves the cursor back by one,
      floored at 0; every other command leaves it in place or moves it one
      forward; the only clips ever added are those of the sentence at the
      cursor. */
  lemma StepFrame(st: State, sentences: seq<string>, turn: Turn)
    ensures turn.command == Some("undo") ==>
              Cursor(Step(st, sentences, turn).state.progress) == Max(0, Cursor(st.progress) - 1)
    ensures turn.command != Some("undo") ==>
              || Cursor(Step(st, sentences, turn).state.progress) == Cursor(st.progress)
              || Cursor(Step(st, sentences, turn).state.progress) == Cursor(st.progress) + 1
    ensures || Step(st, sentences, turn).state.wavs == st.wavs
            || Step(st, sentences, turn).state.wavs == st.wavs + CommitNames(Cursor(st.progress))
  {
    match turn.command
    case None =>
    case Some(c) =>
      if c == "devices" || c == "undo" || c == "assemble" {
      } else {
        StepRecords(st, sentences, turn);
        var idx := Cursor(st.progress);
        if idx >= |sentences| || idx < -|sentences| || turn.practice.None? {
          ReadIsStable(st.progress);
        } else {
          match PassResult(turn.takes)
          case Unfinished => UnfinishedOutcome(st, sentences, turn.practice.value, turn.takes);
          case Raised => RaisedOutcome(st, sentences, turn.practice.value, turn.takes);
          case Skipped => SkipOutcome(st, sentences, turn.practice.value, turn.takes);
          case Committed => CommitOutcome(st, sentences, turn.practice.value, turn.takes);
        }
      }
  }

  /** The cursor stays within the corpus and every clip names a sentence. */
  ghost predicate Consistent(st: State, n: nat)
  {
    && 0 <= Cursor(st.progress) <= n
    && RecordedSentences(st.wavs).Some?
    && forall i :: i in RecordedSentences(st.wavs).value ==> 0 <= i < n
  }

  lemma InitialConsistent(n: nat)
    ensures Consistent(Initial(), n)
  {
  }

  /** A state with the same clips and a cursor still within the corpus is
      consistent too. */
  lemma ConsistentSameClips(st: State, st': State, n: nat)
    requires Consistent(st, n)
    requires st'.wavs == st.wavs && 0 <= Cursor(st'.progress) <= n
    ensures Consistent(st', n)
  {
  }

  /** So is one that adds the clips of the sentence at the cursor. */
  lemma ConsistentAfterCommit(st: State, st': State, n: nat)
    requires Consistent(st, n) && Cursor(st.progress) < n
    requires RecordedSentences(st'.wavs) == Some(RecordedSentences(st.wavs).value + {Cursor(st.progress)})
    requires 0 <= Cursor(st'.progress) <= n
    ensures Consistent(st', n)
  {
  }

  /** A recording turn whose pass meets a capture too short to trim before
      any reviewed take ends it. */
  predicate ShortCapture(turn: Turn)
  {
    turn.command.Some? && IsRecordCommand(turn.command.value) && PassResult(turn.takes) == Raised
  }

  /** From a consistent state a step stays consistent, and crashes only on a
      capture too short to trim. */
  lemma StepKeepsConsistent(st: State, sentences: seq<string>, turn: Turn)
    requires Consistent(st, |sentences|)
    ensures Step(st, sentences, turn).status == Crashed ==> ShortCapture(turn)
    ensures Consistent(Step(st, sentences, turn).state, |sentences|)
  {
    var n := |sentences|;
    var o := Step(st, sentences, turn);
    match turn.command
    case None =>
    case Some(c) =>
      if c == "devices" {
      } else if c == "undo" {
        ConsistentSameClips(st, o.state, n);
      } else if c == "assemble" {
        StepAssembles(st, sentences, turn);
        assert InRange(RecordedSentences(st.wavs).value, sentences);
        ConsistentSameClips(st, o.state, n);
      } else if Cursor(st.progress) >= n {
        FinishedSessionStops(st, sentences, turn);
        ConsistentSameClips(st, o.state, n);
      } else if turn.practice.None? {
        StepRecords(st, sentences, turn);
        ReadIsStable(st.progress);
        ConsistentSameClips(st, o.state, n);
      } else {
        RecordingPass(st, sentences, turn);
        if PassResult(turn.takes) == Committed {
          ConsistentAfterCommit(st, o.state, n);
        } else {
          ConsistentSameClips(st, o.state, n);
        }
      }
  }

  /** A whole session started consistent stays consistent, and crashes only
      when some recording turn met a capture too short to trim. */
  lemma {:induction false} RunKeepsConsistent(st: State, sentences: seq<string>, turns: seq<Turn>)
    requires Consistent(st, |sentences|)
    ensures Run(st, sentences, turns).status == Crashed ==>
              exists k :: 0 <= k < |turns| && ShortCapture(turns[k])
    ensures Consistent(Run(st, sentences, turns).state, |sentences|)
    decreases |turns|
  {
    if |turns| > 0 {
      StepKeepsConsistent(st, sentences, turns[0]);
      var o := Step(st, sentences, turns[0]);
      if o.status == Ready {
        RunKeepsConsistent(o.state, sentences, turns[1..]);
        if Run(st, sentences, turns).status == Crashed {
          var k :| 0 <= k < |turns[1..]| && ShortCapture(turns[1..][k]);
          assert turns[1..][k] == turns[k + 1];
        }
      } else if o.status == Crashed {
        assert ShortCapture(turns[0]);
      }
    }
  }

  lemma AssembleStep(st: State, sentences: seq<string>, turn: Turn)
    requires turn.command == Some("assemble")
    requires RecordedSentences(st.wavs).Some? && InRange(RecordedSentences(st.wavs).value, sentences)
    ensures Step(st, sentences, turn)
            == Outcome(st.(metadata := Some(Assemble(RecordedSentences(st.wavs).value, sentences))), Ready)
  {
  }

  /** A command that leaves the loop ready hands the rest of the input to
      the state it produced. */
  lemma RunReadyStep(st: State, sentences: seq<string>, turns: seq<Turn>)
    requires |turns| > 0 && Step(st, sentences, turns[0]).status == Ready
    ensures Run(st, sentences, turns) == Run(Step(st, sentences, turns[0]).state, sentences, turns[1..])
  {
  }

  /** A take answered with anything but `s` or `r` commits; one answered `s` skips. */
  lemma SingleTakePass(answer: string)
    ensures answer != "s" && answer != "r" ==> PassResult([Reviewed(Some(answer))]) == Committed
    ensures answer == "s" ==> PassResult([Reviewed(Some(answer))]) == Skipped
  {
  }

  lemma NothingRecorded()
    ensures RecordedSentences({}) == Some({})
  {
    var r := RecordedSentences({});
    assert r.Some?;
    assert forall i :: i !in r.value;
    assert r.value == {};
  }

  /** A reviewed take with answer `answer` for the sentence at the cursor,
      which is in range: the cursor moves on, and the clips of that sentence
      are added unless the answer is `s`. */
  lemma OneTakePass(st: State, sentences: seq<string>, answer: string)
    requires -|sentences| <= Cursor(st.progress) < |sentences|
    requires RecordedSentences(st.wavs).Some?
    requires answer != "r"
    ensures var o := Step(st, sentences, Turn(Some(""), Some(""), [Reviewed(Some(answer))]));
            && o.status == Ready
            && Cursor(o.state.progress) == Cursor(st.progress) + 1
            && o.state.metadata == st.metadata
            && (answer == "s" ==> o.state.wavs == st.wavs)
            && (answer != "s" ==>
                  RecordedSentences(o.state.wavs) == Some(RecordedSentences(st.wavs).value + {Cursor(st.progress)}))
  {
    var turn := Turn(Some(""), Some(""), [Reviewed(Some(answer))]);
    SingleTakePass(answer);
    RecordingPass(st, sentences, turn);
    StepRecords(st, sentences, turn);
  }

  /** `undo` then `assemble` once sentence 0 alone is recorded and the
      cursor is at 2: the cursor goes back to 1 and the manifest lists
      sentence 0. */
  lemma UndoThenAssemble(st: State, sentences: seq<string>)
    requires |sentences| >= 1
    requires Cursor(st.progress) == 2 && RecordedSentences(st.wavs) == Some({0})
    ensures var o := Run(st, sentences, [Turn(Some("undo"), None, []), Turn(Some("assemble"), None, [])]);
            && o.status == Quit && Cursor(o.state.progress) == 1
            && o.state.metadata == Some("0_22050|" + sentences[0] + "|" + sentences[0] + "\n")
  {
    var t2 := Turn(Some("undo"), None, []);
    var t3 := Turn(Some("assemble"), None, []);
    var ts := [t2, t3];
    var s3 := Step(st, sentences, t2).state;
    RunReadyStep(st, sentences, ts);
    SingleClipManifest(sentences);
    AssembleStep(s3, sentences, t3);
    RunReadyStep(s3, sentences, ts[1..]);
    assert ts[1..][1..] == [];
  }

  /** Three sentences: accept the first, skip the second, then `undo` and
      `assemble`. The cursor points back at the second sentence and the
      manifest lists the first sentence only. */
  lemma AcceptSkipUndoScenario(a: string, b: string, c: string)
    ensures Run(Initial(), [a, b, c], ScenarioTurns()).status == Quit
    ensures Cursor(Run(Initial(), [a, b, c], ScenarioTurns()).state.progress) == 1
    ensures Run(Initial(), [a, b, c], ScenarioTurns()).state.metadata
            == Some("0_22050|" + a + "|" + a + "\n")
  {
    var sentences := [a, b, c];
    var t0 := Turn(Some(""), Some(""), [Reviewed(Some(""))]);
    var t1 := Turn(Some(""), Some(""), [Reviewed(Some("s"))]);
    var ts := ScenarioTurns();
    assert ts[0] == t0 && ts[1] == t1;
    NothingRecorded();
    var s0 := Initial();
    OneTakePass(s0, sentences, "");
    var s1 := Step(s0, sentences, t0).state;
    assert {} + {0} == {0};
    RunReadyStep(s0, sentences, ts);
    OneTakePass(s1, sentences, "s");
    var s2 := Step(s1, sentences, t1).state;
    RunReadyStep(s1, sentences, ts[1..]);
    assert ts[1..][1..] == [Turn(Some("undo"), None, []), Turn(Some("assemble"), None, [])];
    UndoThenAssemble(s2, sentences);
  }

  /** Accept, skip, undo, assemble. */
  function ScenarioTurns(): seq<Turn>
  {
    [ Turn(Some(""), Some(""), [Reviewed(Some(""))]),
      Turn(Some(""), Some(""), [Reviewed(Some("s"))]),
      Turn(Some("undo"), None, []),
      Turn(Some("assemble"), None, []) ]
  }
}

=== FILE: trim.dfy ===
/** Silence trimming and the quality gate applied to every capture
    (`filter_chunks`). A chunk's energy is abstracted as `metric`, standing for
    `compute_rms` (root mean square of the samples, scaled by 1000). */
module SilenceTrim {
  import opened PyMath

  /** A chunk at or above this energy counts as voice. */
  const RMS_THRESHOLD: real := 25.0
  /** A kept recording must average strictly more than this energy. */
  const MIN_AVG_RMS: real := 40.0
  /** How far in from its own end each scan starts, to pass over the noise
      of the key presses. A scan that finds no voice runs on to the far end. */
  const CHUNK_IGNORE_PADDING: nat := 4
  /** Chunks kept around the voiced region on each side. */
  const CHUNK_KEEP_PADDING: nat := 3
  /** The fewest chunks the forward scan can index without an IndexError. */
  const MIN_CHUNKS: nat := CHUNK_IGNORE_PADDING + 1

  /** One buffer read from the input stream: raw 16-bit sample bytes. */
  type Chunk = seq<bv8>

  predicate Loud(m: real)
  {
    m >= RMS_THRESHOLD
  }

  ghost predicate AllQuiet(chunks: seq<Chunk>, metric: Chunk -> real)
  {
    forall k :: 0 <= k < |chunks| ==> !Loud(metric(chunks[k]))
  }

  /** Where the forward scan stops: the first loud chunk at or after the ignored
      prefix, or the last index when there is none before it. */
  ghost predicate ForwardStop(chunks: seq<Chunk>, metric: Chunk -> real, f: int)
  {
    && CHUNK_IGNORE_PADDING <= f <= |chunks| - 1
    && (forall k :: CHUNK_IGNORE_PADDING <= k < f ==> !Loud(metric(chunks[k])))
    && (f < |chunks| - 1 ==> Loud(metric(chunks[f])))
  }

  /** Where the backward scan stops: the last loud chunk at or before the
      ignored suffix, or index 0 when there is none after it. */
  ghost predicate BackwardStop(chunks: seq<Chunk>, metric: Chunk -> real, l: int)
  {
    && 0 <= l <= |chunks| - 1 - CHUNK_IGNORE_PADDING
    && (forall k :: l < k <= |chunks| - 1 - CHUNK_IGNORE_PADDING ==> !Loud(metric(chunks[k])))
    && (l > 0 ==> Loud(metric(chunks[l])))
  }

  /** An inclusive range of chunk indices. */
  datatype Window = Window(start: int, end: int)

  /** The scan results widened by the keep padding, clamped to the recording. */
  function Widen(first: int, last: int, maxIdx: int): Window
  {
    Window(Max(first - CHUNK_KEEP_PADDING, 0), Min(last + CHUNK_KEEP_PADDING, maxIdx))
  }

  /** `w` is the window the two scans and the widening produce. */
  ghost predicate IsTrimWindow(chunks: seq<Chunk>, metric: Chunk -> real, w: Window)
  {
    && |chunks| >= MIN_CHUNKS
    && exists f, l :: ForwardStop(chunks, metric, f) && BackwardStop(chunks, metric, l)
                      && w == Widen(f, l, |chunks| - 1)
  }

  /** Sum of the energies, accumulated front to back. */
  function MetricSum(cs: seq<Chunk>, metric: Chunk -> real): real
  {
    if |cs| == 0 then 0.0 else MetricSum(cs[..|cs| - 1], metric) + metric(cs[|cs| - 1])
  }

  function MeanMetric(cs: seq<Chunk>, metric: Chunk -> real): real
    requires |cs| > 0
  {
    MetricSum(cs, metric) / (|cs| as real)
  }

  /** The quality gate: a non-degenerate window is kept when its average energy
      is strictly above the minimum; everything else is rejected as `[]`. */
  function Gate(chunks: seq<Chunk>, metric: Chunk -> real, w: Window): seq<Chunk>
  {
    if 0 <= w.start < w.end < |chunks|
       && MeanMetric(chunks[w.start..w.end + 1], metric) > MIN_AVG_RMS
    then chunks[w.start..w.end + 1]
    else []
  }

  /** The forward scan from index `i` on, once every chunk from the ignored
      prefix up to `i` has been found quiet. */
  function ForwardScan(chunks: seq<Chunk>, metric: Chunk -> real, i: int): (f: int)
    requires CHUNK_IGNORE_PADDING <= i <= |chunks| - 1
    requires forall k :: CHUNK_IGNORE_PADDING <= k < i ==> !Loud(metric(chunks[k]))
    ensures i <= f && ForwardStop(chunks, metric, f)
    decreases |chunks| - i
  {
    if !Loud(metric(chunks[i])) && i < |chunks| - 1 then ForwardScan(chunks, metric, i + 1) else i
  }

  /** The backward scan from index `j` down, once every chunk from `j` up to
      the ignored suffix has been found quiet. */
  function BackwardScan(chunks: seq<Chunk>, metric: Chunk -> real, j: int): (l: int)
    requires 0 <= j <= |chunks| - 1 - CHUNK_IGNORE_PADDING
    requires forall k :: j < k <= |chunks| - 1 - CHUNK_IGNORE_PADDING ==> !Loud(metric(chunks[k]))
    ensures l <= j && BackwardStop(chunks, metric, l)
    decreases j
  {
    if !Loud(metric(chunks[j])) && j > 0 then BackwardScan(chunks, metric, j - 1) else j
  }

  /** The window trimming keeps, before the quality gate. */
  function TrimWindow(chunks: seq<Chunk>, metric: Chunk -> real): (w: Window)
    requires |chunks| >= MIN_CHUNKS
    ensures IsTrimWindow(chunks, metric, w)
    ensures 0 <= w.start && w.end <= |chunks| - 1
  {
    var f := ForwardScan(chunks, metric, CHUNK_IGNORE_PADDING);
    var l := BackwardScan(chunks, metric, |chunks| - 1 - CHUNK_IGNORE_PADDING);
    Widen(f, l, |chunks| - 1)
  }

  /** `r` is what trimming `chunks` yields: the gate applied to the trim window. */
  ghost predicate Trims(chunks: seq<Chunk>, metric: Chunk -> real, r: seq<Chunk>)
  {
    exists w :: IsTrimWindow(chunks, metric, w) && r == Gate(chunks, metric, w)
  }

  /** `filter_chunks`: scan forward and backward for voice, widen, then apply
      the quality gate. Fewer than `MIN_CHUNKS` chunks make the source raise
      an IndexError, hence the precondition. */
  method FilterChunks(chunks: seq<Chunk>, metric: Chunk -> real) returns (r: seq<Chunk>)
    requires |chunks| >= MIN_CHUNKS
    ensures r == Gate(chunks, metric, TrimWindow(chunks, metric))
    ensures r != [] ==> var w := TrimWindow(chunks, metric);
              w.start < w.end && r == chunks[w.start..w.end + 1] && MeanMetric(r, metric) > MIN_AVG_RMS
    ensures AllQuiet(chunks, metric) ==> r == []
  {
    var maxIdx := |chunks| - 1;
    var startIdx := ScanForward(chunks, metric);
    var endIdx := ScanBackward(chunks, metric);
    ghost var w := TrimWindow(chunks, metric);
    startIdx := Max(startIdx - CHUNK_KEEP_PADDING, 0);
    endIdx := Min(endIdx + CHUNK_KEEP_PADDING, maxIdx);
    assert w == Window(startIdx, endIdx);
    if AllQuiet(chunks, metric) {
      QuietGateRejects(chunks, metric, w);
    }
    r := [];
    if startIdx < endIdx {
      var kept := chunks[startIdx..endIdx + 1];
      var avg := Average(kept, metric);
      if avg > MIN_AVG_RMS {
        r := kept;
      }
    }
    assert r == Gate(chunks, metric, w);
  }

  /** The forward scan loop: the first voiced chunk from index 4 on, or the
      last index. */
  method ScanForward(chunks: seq<Chunk>, metric: Chunk -> real) returns (f: int)
    requires |chunks| >= MIN_CHUNKS
    ensures f == ForwardScan(chunks, metric, CHUNK_IGNORE_PADDING)
  {
    var maxIdx := |chunks| - 1;
    f := CHUNK_IGNORE_PADDING;
    while metric(chunks[f]) < RMS_THRESHOLD && f < maxIdx
      invariant CHUNK_IGNORE_PADDING <= f <= maxIdx
      invariant forall k :: CHUNK_IGNORE_PADDING <= k < f ==> !Loud(metric(chunks[k]))
      decreases maxIdx - f
    {
      f := f + 1;
    }
    assert ForwardStop(chunks, metric, f);
    ForwardStopUnique(chunks, metric, f, ForwardScan(chunks, metric, CHUNK_IGNORE_PADDING));
  }

  /** The backward scan loop: the last voiced chunk from index `max_idx - 4`
      down, or index 0. */
  method ScanBackward(chunks: seq<Chunk>, metric: Chunk -> real) returns (l: int)
    requires |chunks| >= MIN_CHUNKS
    ensures l == BackwardScan(chunks, metric, |chunks| - 1 - CHUNK_IGNORE_PADDING)
  {
    var maxIdx := |chunks| - 1;
    l := maxIdx - CHUNK_IGNORE_PADDING;
    while metric(chunks[l]) < RMS_THRESHOLD && l > 0
      invariant 0 <= l <= maxIdx - CHUNK_IGNORE_PADDING
      invariant forall k :: l < k <= maxIdx - CHUNK_IGNORE_PADDING ==> !Loud(metric(chunks[k]))
      decreases l
    {
      l := l - 1;
    }
    assert BackwardStop(chunks, metric, l);
    BackwardStopUnique(chunks, metric, l, BackwardScan(chunks, metric, maxIdx - CHUNK_IGNORE_PADDING));
  }

  /** The mean energy of a non-empty capture, summed front to back as the
      source's loop does. */
  method Average(kept: seq<Chunk>, metric: Chunk -> real) returns (avg: real)
    requires |kept| > 0
    ensures avg == MeanMetric(kept, metric)
  {
    var total := 0.0;
    var i := 0;
    while i < |kept|
      invariant 0 <= i <= |kept|
      invariant total == MetricSum(kept[..i], metric)
    {
      assert kept[..i + 1][..i] == kept[..i];
      total := total + metric(kept[i]);
      i := i + 1;
    }
    assert kept[..i] == kept;
    avg := total / (|kept| as real);
  }

  /** Quiet chunks average below the voice threshold. */
  lemma {:induction false} QuietSumBelow(cs: seq<Chunk>, metric: Chunk -> real)
    requires forall k :: 0 <= k < |cs| ==> !Loud(metric(cs[k]))
    ensures |cs| > 0 ==> MetricSum(cs, metric) < RMS_THRESHOLD * (|cs| as real)
    decreases |cs|
  {
    if |cs| > 1 {
      var init := cs[..|cs| - 1];
      assert forall k :: 0 <= k < |init| ==> init[k] == cs[k];
      QuietSumBelow(init, metric);
    }
  }

  /** Whatever window is chosen, a recording with no loud chunk never passes
      the gate: its average is below `RMS_THRESHOLD`, hence below `MIN_AVG_RMS`. */
  lemma QuietGateRejects(chunks: seq<Chunk>, metric: Chunk -> real, w: Window)
    requires AllQuiet(chunks, metric)
    ensures Gate(chunks, metric, w) == []
  {
    if 0 <= w.start < w.end < |chunks| {
      var kept := chunks[w.start..w.end + 1];
      assert forall k :: 0 <= k < |kept| ==> kept[k] == chunks[w.start + k];
      QuietSumBelow(kept, metric);
      var n := |kept| as real;
      assert MetricSum(kept, metric) / n < RMS_THRESHOLD;
    }
  }

  lemma ForwardStopUnique(chunks: seq<Chunk>, metric: Chunk -> real, f1: int, f2: int)
    requires ForwardStop(chunks, metric, f1) && ForwardStop(chunks, metric, f2)
    ensures f1 == f2
  {
  }

  lemma BackwardStopUnique(chunks: seq<Chunk>, metric: Chunk -> real, l1: int, l2: int)
    requires BackwardStop(chunks, metric, l1) && BackwardStop(chunks, metric, l2)
    ensures l1 == l2
  {
  }

  /** The trim window is determined by the recording: trimming is a function
      of the chunks and their energies. */
  lemma TrimWindowUnique(chunks: seq<Chunk>, metric: Chunk -> real, w1: Window, w2: Window)
    requires IsTrimWindow(chunks, metric, w1) && IsTrimWindow(chunks, metric, w2)
    ensures w1 == w2
  {
    var f1, l1 :| ForwardStop(chunks, metric, f1) && BackwardStop(chunks, metric, l1)
                  && w1 == Widen(f1, l1, |chunks| - 1);
    var f2, l2 :| ForwardStop(chunks, metric, f2) && BackwardStop(chunks, metric, l2)
                  && w2 == Widen(f2, l2, |chunks| - 1);
    ForwardStopUnique(chunks, metric, f1, f2);
    BackwardStopUnique(chunks, metric, l1, l2);
  }

  /** Trimming is deterministic: the one result the scans, the widening and
      the gate admit is the gate applied to `TrimWindow`. */
  lemma TrimsExactly(chunks: seq<Chunk>, metric: Chunk -> real, r: seq<Chunk>)
    requires |chunks| >= MIN_CHUNKS
    ensures Trims(chunks, metric, r) <==> r == Gate(chunks, metric, TrimWindow(chunks, metric))
  {
    var tw := TrimWindow(chunks, metric);
    if Trims(chunks, metric, r) {
      var w :| IsTrimWindow(chunks, metric, w) && r == Gate(chunks, metric, w);
      TrimWindowUnique(chunks, metric, w, tw);
    }
  }

  /** The clamping in the widening never binds: the forward scan stops at
      index 4 or later and the backward scan at `max_idx - 4` or earlier, so
      the window keeps at least one chunk out at each end. */
  lemma TrimWindowInside(chunks: seq<Chunk>, metric: Chunk -> real, w: Window)
    requires IsTrimWindow(chunks, metric, w)
    ensures 1 <= w.start && w.end <= |chunks| - 2
    ensures exists f, l :: ForwardStop(chunks, metric, f) && BackwardStop(chunks, metric, l)
                           && w == Window(f - CHUNK_KEEP_PADDING, l + CHUNK_KEEP_PADDING)
  {
    var f, l :| ForwardStop(chunks, metric, f) && BackwardStop(chunks, metric, l)
                && w == Widen(f, l, |chunks| - 1);
    assert w == Window(f - CHUNK_KEEP_PADDING, l + CHUNK_KEEP_PADDING);
  }

  /** The window stays inside the recording, and every loud chunk outside the
      ignored ends lies in it, at least `CHUNK_KEEP_PADDING` chunks from each
      edge. */
  lemma LoudChunkInWindow(chunks: seq<Chunk>, metric: Chunk -> real, w: Window, k: int)
    requires IsTrimWindow(chunks, metric, w)
    requires CHUNK_IGNORE_PADDING <= k <= |chunks| - 1 - CHUNK_IGNORE_PADDING
    requires Loud(metric(chunks[k]))
    ensures 0 <= w.start < w.end <= |chunks| - 1
    ensures w.start <= k - CHUNK_KEEP_PADDING && k + CHUNK_KEEP_PADDING <= w.end
  {
    var f, l :| ForwardStop(chunks, metric, f) && BackwardStop(chunks, metric, l)
                && w == Widen(f, l, |chunks| - 1);
    assert f <= k;
    assert k <= l;
  }

  /** With no loud chunk the scans run to opposite ends, and the window is
      non-empty exactly for recordings of at most six chunks, which only the
      quality gate then rejects. */
  lemma QuietWindowShape(chunks: seq<Chunk>, metric: Chunk -> real, w: Window)
    requires IsTrimWindow(chunks, metric, w)
    requires AllQuiet(chunks, metric)
    ensures w == Window(Max(|chunks| - 1 - CHUNK_KEEP_PADDING, 0), Min(CHUNK_KEEP_PADDING, |chunks| - 1))
    ensures w.start < w.end <==> |chunks| <= 6
  {
    var f, l :| ForwardStop(chunks, metric, f) && BackwardStop(chunks, metric, l)
                && w == Widen(f, l, |chunks| - 1);
    assert f == |chunks| - 1;
    assert l == 0;
  }

  /** A twenty-chunk capture whose chunks 6 to 14 are loud and the rest quiet
      is trimmed to the window [3, 17]. */
  lemma TwentyChunkWindow(chunks: seq<Chunk>, metric: Chunk -> real, w: Window)
    requires |chunks| == 20
    requires forall k :: 0 <= k < 20 ==> (Loud(metric(chunks[k])) <==> 6 <= k <= 14)
    requires IsTrimWindow(chunks, metric, w)
    ensures w == Window(3, 17)
    ensures Gate(chunks, metric, w) == [] || Gate(chunks, metric, w) == chunks[3..18]
  {
    assert ForwardStop(chunks, metric, 6);
    assert BackwardStop(chunks, metric, 14);
    assert IsTrimWindow(chunks, metric, Window(3, 17));
    TrimWindowUnique(chunks, metric, w, Window(3, 17));
  }

  lemma {:induction false} ZeroSum(cs: seq<Chunk>, metric: Chunk -> real)
    requires forall k :: 0 <= k < |cs| ==> metric(cs[k]) == 0.0
    ensures MetricSum(cs, metric) == 0.0
    decreases |cs|
  {
    if |cs| > 0 {
      var init := cs[..|cs| - 1];
      assert forall k :: 0 <= k < |init| ==> init[k] == cs[k];
      ZeroSum(init, metric);
    }
  }

  /** Chunks all silent but chunk `j` sum to the energy of chunk `j`. */
  lemma {:induction false} OneLoudSum(cs: seq<Chunk>, metric: Chunk -> real, j: int, v: real)
    requires 0 <= j < |cs|
    requires forall k :: 0 <= k < |cs| ==> metric(cs[k]) == (if k == j then v else 0.0)
    ensures MetricSum(cs, metric) == v
    decreases |cs|
  {
    var init := cs[..|cs| - 1];
    assert forall k :: 0 <= k < |init| ==> init[k] == cs[k];
    if j == |cs| - 1 {
      ZeroSum(init, metric);
    } else {
      OneLoudSum(init, metric, j, v);
    }
  }

  /** Trimming is not idempotent. Take eleven chunks, silent except for
      chunk 5. The first trim keeps chunks 2 to 8. Trimming those seven
      again starts the forward scan at their index 4, past the loud chunk
      (now at index 3), so the second window is degenerate and the capture
      is rejected. */
  lemma RetrimCanReject(chunks: seq<Chunk>, metric: Chunk -> real)
    requires |chunks| == 11
    requires forall k :: 0 <= k < 11 ==> metric(chunks[k]) == (if k == 5 then 300.0 else 0.0)
    ensures TrimWindow(chunks, metric) == Window(2, 8)
    ensures Gate(chunks, metric, Window(2, 8)) == chunks[2..9]
    ensures TrimWindow(chunks[2..9], metric) == Window(3, 3)
    ensures Gate(chunks[2..9], metric, TrimWindow(chunks[2..9], metric)) == []
  {
    assert ForwardStop(chunks, metric, 5);
    ForwardStopUnique(chunks, metric, 5, ForwardScan(chunks, metric, CHUNK_IGNORE_PADDING));
    assert BackwardStop(chunks, metric, 5);
    BackwardStopUnique(chunks, metric, 5, BackwardScan(chunks, metric, 10 - CHUNK_IGNORE_PADDING));
    var kept := chunks[2..9];
    assert forall k :: 0 <= k < 7 ==> kept[k] == chunks[k + 2];
    OneLoudSum(kept, metric, 3, 300.0);
    assert MeanMetric(kept, metric) == 300.0 / 7.0;
    assert ForwardStop(kept, metric, 6);
    ForwardStopUnique(kept, metric, 6, ForwardScan(kept, metric, CHUNK_IGNORE_PADDING));
    assert BackwardStop(kept, metric, 0);
    BackwardStopUnique(kept, metric, 0, BackwardScan(kept, metric, 6 - CHUNK_IGNORE_PADDING));
  }
}

=== FILE: wrappers.dfy ===
/** Optional values, used for Python results that may be missing (`None`,
    a missing file, a value `int()` refuses to parse). */
module Wrappers {

  datatype Option<+T> = None | Some(value: T)
}
